=== FILE: README.md ===
# CineSeer decision logic in Dafny

CineSeer is a small Go web front end for browsing films and TV series. It
reads from The Movie Database (TMDB) and TheTVDB. Most of it is HTTP and
template glue. This project models the deterministic logic underneath
that glue:

- **Home-page aggregate cache** (`HomeCache`). One snapshot slot is
  filled by seven upstream tasks. A refresh commits all seven lists or
  none. A snapshot is served while it is younger than three hours.
- **Background prefetcher** (`Prefetch`). A single-flight gate has a
  fifteen-minute cooldown. A monotone set of media ids records which
  images and details have already been warmed.
- **Image caches**.
  - `ImageCache` is the hash-keyed cache of `cache.go`: ensure-cached
    over an abstract filesystem, plus the slice transform.
  - `TmdbImages` is the id-keyed poster cache of `tmdb.go`.
  - Both use Go's `filepath.Ext` (`GoPath`).
- **TMDB client** (`TmdbClient`). It models the endpoint paths, the
  request URL and the status decision of `makeRequest`.
- **List shaping**.
  - `TvdbSeries` (and `ListSeries`, the identical copy) is TheTVDB
    listing with its score and image filter and newest-first sort.
  - `UpcomingSeries` is the upcoming listing with its date filter and
    soonest-first sort.
  - `TmdbSeries` is the TMDB trending listing with its display-name
    fallback.
- **Front end** (`Frontend`). It covers base-path normalisation, the
  `/home` route's card selection and the value helpers of the detail
  page.

Shared pieces:

- `Media` holds the catalog entities.
- `Format` holds Go's `%d` and `%x` with their parsers.
- `Dates` holds the `"2006-01-02"` layout and its order.
- `Sorting` holds a reference sort.
- `GoStrings` and `Wrappers` hold small helpers.

The model makes these inputs explicit:

- Time is an integer count of nanoseconds, passed in as `now`.
- Everything the program learns from the network or the disk is an
  input: fetch results, HTTP status codes, whether a file copy failed,
  and which paths exist.
- SHA-256 is a parameter mapping a string to 32 bytes.
- Whether a template rendered is a parameter.
- Goroutines run as sequential steps with one outcome per task.

The Go files do not compile as one package. `GetSeriesData` exists three
times, and `cacheImage` and `generateCacheFilename` each exist in two
signatures. Each variant is modelled in its own module. The
three-argument `cacheImage(path, id, role)` that `frontend.go` calls is
not part of this model. The prefetcher therefore only records those
calls as work items.

## Model

| member | source | states |
|---|---|---|
| Media.MovieKindFromReleaseDateOnly | server.go:28-32 | `isMovie` looks only at the release date. Changing the first-air date or the media type never changes it. An entry with both dates is a movie. |
| Media.CategoryOfKey | frontend.go:209-226 | The `type` values the `/home` switch accepts are exactly the seven list keys. Any other value maps to no list. |
| HomeCache.ListTask | server.go:59-72 | A list task's outcome is the fetch error, or the fetched results. An empty result leaves the pre-made empty list. |
| HomeCache.RecommendationTask | server.go:139-185 | A failed popular fetch is the task's error and no recommendation call happens. Zero popular items give an empty list, no error and no call. Otherwise the call is seeded with the id of the first popular item. |
| HomeCache.RunTasks | server.go:59-185 | Each of the five list tasks reports its own fetch: the items or the error. A recommendation task calls its endpoint exactly when the seeding popular fetch has items. It uses the first item's id and reports that call. Otherwise it reports the seeding fetch's error, or an empty list. This holds for TV and for movies. |
| HomeCache.NoSeedNoRecommendations | server.go:150-151 | When a seeding popular fetch returns nothing, that recommendation list is empty and no seed is used. This holds for TV and for movies. |
| HomeCache.FirstErrorIn | server.go:189-197 | No error is reported exactly when every task in the list succeeded. A reported error is one of the tasks' errors. |
| HomeCache.FirstError | server.go:189-197 | Over all seven tasks: no error exactly when all succeeded. Otherwise the error is some task's error. |
| HomeCache.Refresh | server.go:42-203 | Refresh fails exactly when some task failed. On failure the snapshot and refresh time stay unchanged. On success a new snapshot whose seven lists are the task results is committed, stamped with `now`. |
| HomeCache.Get | server.go:205-221 | A stored snapshot younger than three hours (strict) is served without refreshing. Otherwise a refresh runs. The caller gets its error, even when an older snapshot exists, or else the new snapshot. |
| HomeCache.NoRefreshWithinTtl | server.go:207-210 | Any number of calls made while the stored snapshot is younger than the TTL leave the state unchanged and make no refresh attempt. |
| HomeCache.ExpiredCallRefreshesOnce | server.go:207-213 | Once the TTL has elapsed, one call makes exactly one refresh attempt. |
| HomeCache.FailedRefreshServesNoStaleData | server.go:212-216 | When an expired snapshot is stored and a task fails, the caller gets an error, not the stale snapshot, and the state is unchanged. |
| Prefetch.StartBackgroundCaching | frontend.go:78-84 | A cycle starts exactly when none is running and strictly more than fifteen minutes have passed since the last finish (always true before the first). Starting sets the in-progress flag; otherwise the gate is unchanged. |
| Prefetch.FinishCycle | frontend.go:86-91 | Finishing clears the in-progress flag and records the finish time. |
| Prefetch.SingleFlight | frontend.go:80-83 | While a cycle runs, no request starts another, however late it comes. |
| Prefetch.CooldownAfterFinish | frontend.go:80-91 | After a finish at time t, a request at `now` starts a cycle exactly when `now - t` exceeds fifteen minutes. |
| Prefetch.ItemWork | frontend.go:42-67 | The poster is downloaded exactly when its path is non-empty, and the backdrop likewise. Every download is of the item's own poster or backdrop path, keyed by the decimal id. The poster comes first. There is one step per present image plus one. The last step is one detail fetch whose kind follows `isMovie`. |
| Prefetch.CacheMediaContent | frontend.go:31-75 | An id already marked does no work. Any other id does its item work. Either way the marked set afterwards is the old set plus the id, whatever the work's errors. |
| Prefetch.ProcessItems | frontend.go:31-75 | Over a cycle's items in sequence, the marked set ends as the old set plus all item ids. Work happens only for ids not marked before, and for every such id. No piece of work is done twice. If every id was already marked, nothing is done. |
| Prefetch.NewItemWarmed | frontend.go:31-75 | An item that is the first occurrence of an id not marked before the pass has every piece of its work done. |
| Prefetch.WorkComesFromNewItem | frontend.go:31-75 | Every piece of work done in a pass is work of an item that is the first occurrence of an id not marked before. |
| Prefetch.ProcessItemsWorkExactly | frontend.go:31-75 | The work of a pass is exactly the work of the first occurrences of the ids not marked before it. |
| Prefetch.SecondPassDoesNoWork | frontend.go:35-40 | A second pass over the same items does no work and marks nothing new. |
| Prefetch.CycleItems | frontend.go:106-133 | A cycle visits the items of trending TV, trending movies, popular TV, popular movies and upcoming movies, and no others. |
| Prefetch.RunCycle | frontend.go:85-138 | A cycle always finishes the gate at its end time. When reading the home page fails it warms nothing. Otherwise it marks exactly the five lists' ids. |
| Prefetch.RecommendationsNeverWarmed | frontend.go:106-133 | An id that only a recommendation list holds is never warmed or marked. |
| Prefetch.ProcessItemsAllCheckFirst | frontend.go:35-40 | Under the schedule where every item checks before any marks, the marked set still ends as the old set plus all ids, and work happens only for ids new to the cycle. |
| Prefetch.AllCheckFirstRepeatsWork | frontend.go:35-72 | Under that schedule, an id listed twice in one cycle has its details fetched twice. |
| Frontend.Min | frontend.go:23-28 | The result is one of the arguments and is at most both. |
| Frontend.NormalizeBasePath | frontend.go:151-159 | The base is empty or starts with '/'. An unset value and "/" both give "". An already normal path is kept. A missing leading '/' is added. The base grows by at most one character. |
| Frontend.OnlyOneSlashTrimmed | frontend.go:159 | Only one trailing '/' is removed: "//" gives "/". |
| Frontend.NormalizeIsIdempotent | frontend.go:151-159 | Normalising again changes nothing unless the result still ends in '/'. |
| Frontend.CardTitle | frontend.go:234-236 | The title is Title, or Name when Title is empty. It is empty only when both are. |
| Frontend.YearOf | frontend.go:242-244 | A year is printed exactly when the date parses, and it is all digits. |
| Frontend.YearOfRoundTrip | frontend.go:242-244 | The printed year reads back as the parsed year. |
| Frontend.CardKind | frontend.go:240-250 | The type is "movie" exactly for a release date (`isMovie`), "series" exactly for no release date and a first-air date, and empty otherwise. |
| Frontend.CardYear | frontend.go:240-250 | The year comes from the date that decided the type. A release date that does not parse gives no year and no fallback. |
| Frontend.CardsOf | frontend.go:233-263 | Every card is the card of an item that has a title and a poster and whose card rendered. Every such item's card is among the cards. Every card has a title. |
| Frontend.CardsOfSingle | frontend.go:233-263 | One item yields its card when it has a title and a poster and its card rendered, and no card otherwise. |
| Frontend.CardsOfConcat | frontend.go:233-263 | The cards of two item lists in a row are the first list's cards followed by the second's, so card order follows item order. |
| Frontend.BuildCards | frontend.go:233-263 | The loop produces exactly the cards of the first `min(len, 20)` items. There are at most twenty. |
| Frontend.HomeRoute | frontend.go:192-273 | An empty type gives a 400 before the cache is read. A cache error gives a 500 carrying that error. An unknown type gives a 400 after the read. An empty list gives "No content available". A list with no valid card gives "No valid content available". Otherwise the cards are returned. Status 400 occurs exactly in the two bad-type cases. |
| Frontend.FirstWithJob | frontend.go:479-480 | The director and screenplay fields are the name on the first credit with that job, or "N/A" when there is none. |
| Frontend.ProducerNames | frontend.go:481 | The producer names are exactly the names on credits with the job "Producer". |
| Frontend.NoProducerNoNames | frontend.go:481 | With no producer credit the list of producer names is empty. |
| Frontend.FirstProducerHeadsNames | frontend.go:481 | The first producer credited is the first producer name. |
| Frontend.LastProducerEndsNames | frontend.go:481 | The last producer credited is the last producer name. |
| Frontend.ProducerNamesStart | frontend.go:481 | For every credit that is the first producer, its name heads the producer names. |
| Frontend.ProducerNamesFinish | frontend.go:481 | For every credit that is the last producer, its name ends the producer names. |
| Frontend.ProducerNamesSingle | frontend.go:481 | One credit contributes its name exactly when its job is "Producer". |
| Frontend.ProducerNamesConcat | frontend.go:481 | The producer names of two credit lists in a row are the first list's names followed by the second's. So the names keep credit order and repeat as often as the credits do. |
| Frontend.ProducersConcat | frontend.go:481 | Appending credits without producers leaves the field unchanged. Two lists that both have producers give the two fields joined by ", ". |
| Frontend.Producers | frontend.go:481 | With no producer credit the field is "". Otherwise it starts with the first producer's name and ends with the last one's. A single producer gives just that name. |
| GoStrings.Join | frontend.go:481 | `strings.Join` of no parts is "" and of one part is that part. Otherwise the result starts with the first part and ends with the last. Its length is the parts' total plus one separator fewer than there are parts. |
| GoStrings.JoinConcat | frontend.go:481 | Joining two non-empty lists of parts at once is joining each list and putting one separator between the two results. |
| Frontend.PluralSuffix | frontend.go:443 | The map lookup yields "s" exactly when the season count is not 1. The missing key yields "". |
| Frontend.Duration | frontend.go:439-444 | A movie shows "N minutes". Anything else shows "1 Season" for one season and "N Seasons" otherwise. |
| Frontend.DurationCountRoundTrip | frontend.go:439-444 | The number a duration starts with reads back as the runtime or season count. |
| Dates.LongDate | frontend.go:424 | The "January 2, 2006" form reads back: the month name, a space, the day that parses back to the date's day, ", ", and four digits whose value is the year. |
| Frontend.DetailRelease | frontend.go:420-432 | The date comes from ReleaseDate when it is set, else from FirstAirDate. It is formatted as "January 2, 2006" with its year. A set ReleaseDate that does not parse leaves both fields empty. |
| Frontend.CardAndDetailYearsAgree | frontend.go:420-432 | A home card and the detail page of the same entry show the same year. |
| Frontend.DetailTitle | frontend.go:414-418 | The detail title is Title, or Name when Title is empty. |
| Frontend.SeasonNumbers | frontend.go:451-469 | A series lists seasons 1 to NumberOfSeasons in order. Other content lists none. A negative count panics. |
| Frontend.BackdropLink | frontend.go:486-489 | The backdrop link exists exactly when the backdrop path is non-empty. It points at `../api/image/<id>/backdrop`. The id in the link reads back as the entry's id. |
| GoPath.Ext | cache.go:45 | `filepath.Ext` is either empty or a suffix that starts with its only '.' and has no '/'. It is empty only when every '.' in the path has a '/' after it. |
| GoPath.ExtOrJpg | cache.go:45-48 | The extension used is the URL's own `filepath.Ext` when that is non-empty, which is a '.'-led suffix of the URL. It is ".jpg" exactly when the URL has none. |
| Format.DecimalRoundTrip | tmdb.go:146 | `%d` output reads back as the same integer. |
| Format.HexRoundTrip | cache.go:52 | `%x` output reads back as the same bytes. |
| ImageCache.CacheFilename | cache.go:43-53 | The name is 16 lower-case hex characters that read back as the first 8 hash bytes, followed by the extension (".jpg" by default). It contains no '/'. |
| ImageCache.DownloadAndCacheImage | cache.go:56-103 | Download succeeds exactly on status 200, an `image/` content type, and a file that is created and fully copied. A bad status or type creates no file. A failed create leaves none. A failed copy removes the file, unless the removal also fails; then the partial file stays and the copy error is still reported. Success adds the file. |
| ImageCache.GetCachedImageURL | cache.go:21-40 | An empty URL is an error and changes nothing. A cached path is served without downloading. A missing path is downloaded first. The result is `/static/cache/<name>` exactly when the file existed or the download succeeded. A failure leaves the filesystem unchanged, except that a failed copy whose removal also failed leaves the partial file. |
| ImageCache.PartialFileServedLater | cache.go:31-100 | When a copy and the removal of its partial file both fail, the lookup reports an error. The next lookup of the same URL finds the partial file and serves it without downloading. |
| ImageCache.LookupIdempotent | cache.go:31-39 | After a successful lookup, the same lookup neither downloads nor changes anything, whatever the network would say. |
| ImageCache.NotFoundLeavesNoFile | cache.go:76-78 | A 404 for an uncached URL is an error and leaves the filesystem unchanged. |
| ImageCache.LookupItem | cache.go:108-118 | An element with an empty URL touches nothing and gets no cached URL. Otherwise the lookup adds at most its own cache path. It yields the cached URL exactly when the URL is non-empty and the file existed or the download succeeds. |
| ImageCache.TransformFrom | cache.go:106-124 | The loop yields one element for every element of the series. |
| ImageCache.TransformFsBounds | cache.go:106-124 | The filesystem only grows, and each new file is the cache path of some element's URL. |
| ImageCache.TransformItemAt | cache.go:106-124 | Each element is either unchanged or has its URL replaced by its cached URL. An empty URL leaves it unchanged. A URL that was cached or downloads successfully is replaced. An element whose cache path is missing from the final filesystem is unchanged. |
| ImageCache.FailedLookupKeepsElement | cache.go:109-116 | An element whose file was not cached, whose download fails, and whose cache path no earlier element shares stays unchanged. This holds even when the failed copy left a partial file behind. |
| ImageCache.ItemAgainstPrefix | cache.go:106-124 | Element `i` gets its cached URL exactly when its URL is non-empty and either its file exists once the earlier elements are done or its own download succeeds. Otherwise it is kept. The file may have existed before or been written by an earlier element, even as a partial file. |
| ImageCache.TransformAllItems | cache.go:106-124 | The facts about a single element hold for every element of the series. |
| ImageCache.TransformImageURLs | cache.go:106-124 | Length is preserved and no error is possible. The filesystem only gains the items' cache paths. An item is unchanged when its URL is empty or caching failed, including a failed download that left a partial file. Otherwise its URL is replaced by its cached URL. Exactly: an item is replaced when its URL is non-empty and either its file exists after the earlier items or its own download succeeds. |
| TmdbImages.GenerateCacheFilename | tmdb.go:141-147 | The name is the decimal id, "-poster", then the URL's extension or ".jpg". |
| TmdbImages.FilenameRoundTrip | tmdb.go:141-147 | The id and the extension read back from the name, so distinct ids never share a poster file. |
| TmdbImages.AsWrittenRequestsBarePaths | tmdb.go:150-152 | As written, a poster path starting with '/' is requested as is, without scheme or host. |
| TmdbImages.AsWrittenPrefixesFullURLs | tmdb.go:150-152 | As written, a full http(s) URL gets the image base URL glued in front of it. |
| TmdbImages.ResolveImageURLAsWritten | tmdb.go:150-152 | As written, the requested URL ends with the given URL. It is an http(s) URL exactly when the given URL does not start with '/'. A '/' path is requested unchanged. |
| TmdbImages.AsWrittenResolvesAwayFromRoot | tmdb.go:150-152 | As written, a URL not starting with '/' gets the base URL in front of it, and a '/' path resolves to no http(s) URL. |
| TmdbImages.ResolveImageURL | tmdb.go:150-152 | Corrected resolution: the requested URL is always http(s). A full URL is kept. Anything else is the image base URL followed by the path. |
| TmdbImages.Fetch | tmdb.go:154-172 | The GET and the file write for one requested URL. A URL with no http(s) scheme fails before any request. A failed GET or a status other than 200 is an error before any file exists. A failed create leaves none. Otherwise `static/cache/<filename>` exists afterwards, including after a failed copy. There is no error exactly on a 200 and a full write. |
| TmdbImages.CacheImage | tmdb.go:149-173 | As written, every call downloads; there is no existence check. It requests the as-written URL. A URL not starting with '/' behaves like a fetch of the base URL followed by it. A '/' path always fails and leaves the filesystem unchanged. |
| TmdbImages.AsWrittenNeverCachesPosterPaths | tmdb.go:149-173 | As written, a '/' poster path never creates a cache file and always reports an error, whatever the network would answer. |
| TmdbImages.CacheImageCorrected | tmdb.go:149-173 | With the corrected resolution, the requested URL is always http(s). A full URL is kept. A path gets the base URL in front of it. The fetch semantics are those of `Fetch`. |
| TmdbImages.CorrectedCachesPosterPaths | tmdb.go:149-173 | With the corrected resolution, a '/' poster path answered with 200 and fully written is requested under the base URL, adds its cache file and reports no error. |
| TmdbImages.PartialFileSurvives | tmdb.go:166-172 | For a URL not starting with '/', a failed copy reports an error and leaves the partial file in place. |
| TmdbClient.EndpointPath | tmdb.go:214-382 | Every path starts with '/'. A series id call starts with "/tv/" and the id, a movie id call with "/movie/" and the id. Recommendation calls end in "/recommendations". Trending calls start with "/trending/". |
| TmdbClient.DecimalAvoidsPathLetters | tmdb.go:265 | A printed id contains no '/', 'p' or 'u', the characters that tell the fixed paths apart. |
| TmdbClient.EndpointPathRoundTrip | tmdb.go:215-382 | Every endpoint path the client builds parses back to the same endpoint. |
| TmdbClient.EndpointPathInjective | tmdb.go:215-382 | Distinct endpoints have distinct paths. |
| TmdbClient.RequestUrl | tmdb.go:95 | The URL is the base URL, then the endpoint, then `?api_key=` and the key, and nothing else. |
| TmdbClient.MakeRequest | tmdb.go:88-138 | A missing API key is fatal, as `getAPIKey` (tmdb.go:16-22, called at the start) makes it. A body is returned exactly when the key is set and the response has status 200. The body is returned unchanged. Other statuses fail with a message ending in "(Status: N)". |
| TmdbClient.InvalidJsonStillReturned | tmdb.go:130-137 | With status 200, a body that is not valid JSON is still returned. |
| TmdbSeries.DisplayName | tmdb.go:185-188 | The display name is Name, or Title when Name is empty. It is empty only when both are. |
| TmdbSeries.Listing | tmdb.go:183-199 | Exactly the entries with a display name and a poster path are listed, with Image set to the poster path. |
| TmdbSeries.GetSeriesData | tmdb.go:176-200 | A failed trending fetch is passed through. Otherwise the result is the listing of the trending results, in input order. |
| Sorting.SortBy | get_series.go:113-118 | The reference sort is ordered by its key and is a permutation of its input. |
| TvdbSeries.Kept | get_series.go:88-111 | An entry is kept exactly when its image is a non-empty `https://` URL and its score is at least 2000, with fields copied unchanged. |
| TvdbSeries.FilterSeries | get_series.go:88-111 | The loop keeps exactly the qualifying entries in input order. |
| TvdbSeries.SortNewestFirst | get_series.go:113-118 | The output is newest first by first-aired date, with unparseable dates counted as the zero time. It is a permutation of the input. |
| TvdbSeries.GetSeriesData | get_series.go:60-121 | An upstream error is passed through. Otherwise the result is a newest-first permutation of the qualifying entries. Every result has an `https://` image and a score of at least 2000. |
| TvdbSeries.NoDateFilter | get_series.go:88-98 | Changing an entry's first-aired date never changes whether it is kept. |
| ListSeries.GetSeriesData | list_series.go:46-107 | Same as above for the second copy: pass-through error, or a newest-first permutation of the entries with an `https://` image and score of at least 2000. |
| UpcomingSeries.Kept | upcoming_series.go:86-114 | An entry is kept exactly when its date parses, its image is a non-empty `https://` URL, its score is at least 500 and its date is strictly after today. |
| UpcomingSeries.FilterUpcoming | upcoming_series.go:86-114 | The loop keeps exactly the qualifying entries in input order. |
| UpcomingSeries.SortSoonestFirst | upcoming_series.go:117-122 | The output is soonest first and a permutation of the input. |
| UpcomingSeries.GetUpcomingSeriesData | upcoming_series.go:58-125 | An upstream error is passed through. Otherwise the result is a soonest-first permutation of the qualifying entries, each with a valid future date, an `https://` image and a score of at least 500. |
| Dates.DateKeyIsCalendarOrder | upcoming_series.go:119-121 | Comparing date keys is comparing calendar dates (year, then month, then day). |
| Dates.UnparsedIsZeroTime | get_series.go:115-117 | A date that does not parse sorts like 0001-01-01, no later than any parsed date of year 1 or later. |

## Left out

- Network and disk I/O are inputs. This covers the HTTP calls, `io.ReadAll`, `os.Create`, `io.Copy`, `os.Stat` and `os.Remove`. The outcome of `os.Remove` after a failed copy is an input too (`ImageCache.Write`). An `os.Stat` error other than "not exist" counts as "exists", as in `cache.go:31`. That case is folded into the filesystem set.
- ImageCache.LookupItem: `net` maps a URL to one download outcome. Every download of the same URL within one transform therefore has the same outcome. In the source, a URL that failed cleanly can be fetched again by a later element, and that fetch may succeed.
- TmdbImages.Fetch: only the lower-case "http://" and "https://" schemes count as fetchable. `http.Get` also accepts upper-case schemes. Its error text for other URLs is shortened to "unsupported protocol scheme".
- JSON encoding and decoding, `.env` loading, `os.Getenv`, logging, and the TheTVDB login and authenticated request are not modelled. Decoded data is the input.
- `tvdb_api.go`, `info_series.go` and `series_background.go` are not part of this model. They only fetch and decode.
- Goroutines, the wait group, the error channel and the mutexes are not modelled.
  - Tasks run as sequential steps.
  - `refreshHomePageCache` holds the write lock across the whole fan-out (`server.go:43`). This is not modelled.
  - Which failing task's error is reported depends on channel order. The model only promises some failing task's error.
- HomeCache.Get: a clock that runs backwards makes the snapshot count as fresh, as `time.Since` would. Monotonic-clock details are not modelled.
- Prefetch: the three-argument image cache and the detail fetches the cycle triggers are recorded as work items, not performed. Their errors are only logged in the source, so nothing depends on them.
- Prefetch.ProcessItems: exactly-once is proved for the sequential fold only. Under real concurrency, see Findings.
- Fiber routing, template rendering, `SendFile`, `main`, the `/`, `/series/:id` and `/movie/:id` page routes, the image route with its movie-then-series fallback, and the season route are not modelled.
- Detail page fields with no decision logic are not modelled. These are the plain joins of genre, country, studio and keyword names, the HTML of each season block, `strings.ToUpper` of the language, `humanize.Comma` of revenue and budget, and the float fields (rating, vote average, popularity).
- Frontend: `renderMediaContent` reads Title and Credits, which the `DetailedContent` type shown in `tmdb.go` lacks. The model takes those fields as given.
- Frontend.HomeRoute: the card HTML is not modelled. The reply holds the cards that rendered.
- Upcoming dates: "today" is the date key of the current UTC day. A date is after now exactly when it is a later calendar day. Time zones are not modelled.
- `time.Parse` accepts only the concrete "2006-01-02" form: four-digit year, month 1-12 and a leap-aware day. An unparseable date is the zero time.
- `filepath.Join` is plain `dir + "/" + name`. That is exact for the names built here, which contain no '/' and are not "." or "..". Path cleaning for other names is not modelled.
- Integers are unbounded. Go's 64-bit `int` and `time.Duration` overflow is not modelled.
- Sorting.SortBy: `sort.Slice` is not stable and its exact output order among equal dates is unspecified. The model promises only sortedness and permutation.

## Findings

| source | as written | input that shows it | evidently intended | confidence | as-written member | corrected member |
|---|---|---|---|---|---|---|
| tmdb.go:150-152 | The image base URL is prefixed only when `filepath.IsAbs(imageURL)` is false. | A TMDB poster path "/abc.jpg" is absolute, so it is requested bare. "https://…/abc.jpg" is relative, so it gets the base URL glued in front. | Prefix the base URL to poster paths and keep full http(s) URLs. | medium, not executed | TmdbImages.AsWrittenNeverCachesPosterPaths | TmdbImages.CacheImageCorrected |
| frontend.go:35-40, 69-72 | The dedup set is checked and marked in two separate critical sections, with the work in between. | Id 7 in both trending TV and popular TV: both goroutines check before either marks, so the details of 7 are fetched twice. | Each id is warmed at most once per cycle. | medium, not executed | Prefetch.AllCheckFirstRepeatsWork | Prefetch.ProcessItems |

=== FILE: dates.dfy ===
/**
  The calendar dates the core parses with Go's layout "2006-01-02" and the
  order `time.Time` puts them in. A date that does not parse becomes the
  zero time, January 1 of year 1, exactly as `time.Parse` returns it.
 */
module Dates {
  import opened Wrappers
  import opened Format

  /** Four year digits, '-', two month digits, '-', two day digits, all in range. */
  predicate ValidIsoDate(s: string) {
    && |s| == 10
    && AllDigits(s[0..4]) && s[4] == '-' && AllDigits(s[5..7]) && s[7] == '-' && AllDigits(s[8..10])
    && 1 <= DigitsValue(s[5..7]) <= 12
    && 1 <= DigitsValue(s[8..10]) <= DaysIn(DigitsValue(s[5..7]), DigitsValue(s[0..4]))
  }

  predicate IsLeapYear(year: int) {
    year % 4 == 0 && (year % 100 != 0 || year % 400 == 0)
  }

  function DaysIn(month: int, year: int): int
    requires 1 <= month <= 12
  {
    if month == 2 then (if IsLeapYear(year) then 29 else 28)
    else if month == 4 || month == 6 || month == 9 || month == 11 then 30
    else 31
  }

  function Year(s: string): nat
    requires ValidIsoDate(s)
  {
    DigitsValue(s[0..4])
  }

  function Month(s: string): (m: nat)
    requires ValidIsoDate(s)
    ensures 1 <= m <= 12
  {
    DigitsValue(s[5..7])
  }

  function Day(s: string): (d: nat)
    requires ValidIsoDate(s)
    ensures 1 <= d <= 31
  {
    DigitsValue(s[8..10])
  }

  /** The key of the zero `time.Time`, 0001-01-01. */
  const ZeroKey := 10101

  function KeyOf(year: int, month: int, day: int): int {
    year * 10000 + month * 100 + day
  }

  /** Where `time.Parse("2006-01-02", s)` puts `s` on the time line, as an integer. */
  function DateKey(s: string): int {
    if ValidIsoDate(s) then KeyOf(Year(s), Month(s), Day(s)) else ZeroKey
  }

  /** Calendar order of two parsed dates: by year, then month, then day. */
  predicate Earlier(a: string, b: string)
    requires ValidIsoDate(a) && ValidIsoDate(b)
  {
    || Year(a) < Year(b)
    || (Year(a) == Year(b) && Month(a) < Month(b))
    || (Year(a) == Year(b) && Month(a) == Month(b) && Day(a) < Day(b))
  }

  /** Comparing keys is comparing calendar dates. */
  lemma DateKeyIsCalendarOrder(a: string, b: string)
    requires ValidIsoDate(a) && ValidIsoDate(b)
    ensures DateKey(a) < DateKey(b) <==> Earlier(a, b)
  {
  }

  /** A date that does not parse sorts exactly like 0001-01-01, and not after any parsed date of year 1 or later. */
  lemma UnparsedIsZeroTime(s: string, t: string)
    requires !ValidIsoDate(s) && ValidIsoDate(t) && 1 <= Year(t)
    ensures DateKey(s) <= DateKey(t)
  {
  }

  function MonthName(m: int): string
    requires 1 <= m <= 12
  {
    ["January", "February", "March", "April", "May", "June", "July",
     "August", "September", "October", "November", "December"][m - 1]
  }

  /**
    A parsed date formatted with the layout "January 2, 2006": month name,
    day without padding, and the year padded to four digits, which are the
    four digits it was parsed from.
   */
  function LongDate(s: string): (r: string)
    requires ValidIsoDate(s)
    ensures var n := |MonthName(Month(s))|;
      && n + 1 + 1 + 6 <= |r|
      && r[..n] == MonthName(Month(s)) && r[n] == ' '
      && ParseDecimal(r[n + 1..|r| - 6]) == Some(Day(s))
      && r[|r| - 6..|r| - 4] == ", "
      && AllDigits(r[|r| - 4..]) && DigitsValue(r[|r| - 4..]) == Year(s)
  {
    var name := MonthName(Month(s));
    var day := Decimal(Day(s));
    var r := name + " " + day + ", " + s[0..4];
    DecimalRoundTrip(Day(s));
    assert r[..|name|] == name;
    assert r[|name| + 1..|r| - 6] == day;
    assert r[|r| - 6..|r| - 4] == ", ";
    assert r[|r| - 4..] == s[0..4];
    r
  }
}

=== FILE: format.dfy ===
/**
  The two `fmt` verbs the core formats numbers with: `%d` on an int
  (also `fmt.Sprint` of an int) and `%x` on a byte slice. Each comes
  with the parser that undoes it, and a round-trip lemma.
 */
module Format {
  import opened Wrappers

  type byte = b: int | 0 <= b < 256

  predicate IsDigit(c: char) {
    '0' <= c <= '9'
  }

  predicate AllDigits(s: string) {
    forall i :: 0 <= i < |s| ==> IsDigit(s[i])
  }

  function DigitValue(c: char): int
    requires IsDigit(c)
  {
    c as int - '0' as int
  }

  function DigitChar(d: int): (c: char)
    requires 0 <= d < 10
    ensures IsDigit(c) && DigitValue(c) == d
  {
    ('0' as int + d) as char
  }

  /** Decimal digits of `n`, most significant first, without leading zeros. */
  function NatDigits(n: nat): (r: string)
    ensures 1 <= |r|
    ensures AllDigits(r)
    ensures 1 < |r| ==> r[0] != '0'
    decreases n
  {
    if n < 10 then [DigitChar(n)] else NatDigits(n / 10) + [DigitChar(n % 10)]
  }

  /** The number a string of decimal digits denotes. */
  function DigitsValue(s: string): nat
    requires AllDigits(s)
  {
    if |s| == 0 then 0 else DigitsValue(s[..|s| - 1]) * 10 + DigitValue(s[|s| - 1])
  }

  lemma {:induction false} NatDigitsValue(n: nat)
    ensures DigitsValue(NatDigits(n)) == n
    decreases n
  {
    if n >= 10 {
      var r := NatDigits(n);
      assert r[..|r| - 1] == NatDigits(n / 10);
      NatDigitsValue(n / 10);
    }
  }

  /** `%d` of an int: an optional minus sign, then the digits of the magnitude. */
  function Decimal(n: int): (r: string)
    ensures 1 <= |r|
    ensures r[0] == '-' <==> n < 0
    ensures forall i :: 0 <= i < |r| ==> IsDigit(r[i]) || (i == 0 && r[i] == '-')
  {
    if n < 0 then "-" + NatDigits(-n) else NatDigits(n)
  }

  /** Reads back what `Decimal` writes: an optional '-', then at least one digit. */
  function ParseDecimal(s: string): Option<int> {
    if 0 < |s| && s[0] == '-' then
      if 1 < |s| && AllDigits(s[1..]) then var v: int := 0 - DigitsValue(s[1..]) as int; Some(v) else None
    else if 0 < |s| && AllDigits(s) then Some(DigitsValue(s))
    else None
  }

  lemma DecimalRoundTrip(n: int)
    ensures ParseDecimal(Decimal(n)) == Some(n)
  {
    if n < 0 {
      var r := Decimal(n);
      assert r[1..] == NatDigits(-n);
      NatDigitsValue(-n);
    } else {
      NatDigitsValue(n);
    }
  }

  /** `Decimal` is injective: distinct ints print differently. */
  lemma DecimalInjective(m: int, n: int)
    ensures Decimal(m) == Decimal(n) ==> m == n
  {
    DecimalRoundTrip(m);
    DecimalRoundTrip(n);
  }

  predicate IsLowerHex(c: char) {
    '0' <= c <= '9' || 'a' <= c <= 'f'
  }

  function HexValue(c: char): int
    requires IsLowerHex(c)
  {
    if c <= '9' then c as int - '0' as int else c as int - 'a' as int + 10
  }

  function HexChar(d: int): (c: char)
    requires 0 <= d < 16
    ensures IsLowerHex(c) && HexValue(c) == d
  {
    if d < 10 then ('0' as int + d) as char else ('a' as int + d - 10) as char
  }

  /** `%x` of a byte slice: two lower-case hex digits per byte, high nibble first. */
  function Hex(bs: seq<byte>): (r: string)
    ensures |r| == 2 * |bs|
    ensures forall i :: 0 <= i < |r| ==> IsLowerHex(r[i])
  {
    if |bs| == 0 then "" else [HexChar(bs[0] / 16), HexChar(bs[0] % 16)] + Hex(bs[1..])
  }

  /** Reads pairs of hex digits back into bytes. */
  function Unhex(s: string): seq<byte>
    requires |s| % 2 == 0
    requires forall i :: 0 <= i < |s| ==> IsLowerHex(s[i])
  {
    if |s| == 0 then [] else [HexValue(s[0]) * 16 + HexValue(s[1])] + Unhex(s[2..])
  }

  lemma {:induction false} HexRoundTrip(bs: seq<byte>)
    ensures Unhex(Hex(bs)) == bs
  {
    if |bs| > 0 {
      var r := Hex(bs);
      assert r[2..] == Hex(bs[1..]);
      HexRoundTrip(bs[1..]);
    }
  }
}

=== FILE: frontend.dfy ===
/**
  The deterministic parts of the web front end: base-path normalisation,
  the `/home` fragment route's card selection, and the value helpers of
  the detail page. Template rendering is a parameter: `renders` says
  whether the card template rendered a given card.
 */
module Frontend {
  import opened Wrappers
  import opened GoStrings
  import opened Format
  import opened Dates
  import opened Media
  import HomeCache

  function Min(a: int, b: int): (r: int)
    ensures r <= a && r <= b
    ensures r == a || r == b
  {
    if a < b then a else b
  }

  /**
    BASE_PATH as the routes use it: empty means "/", a leading '/' is
    added when missing, then one trailing '/' is removed, so the root
    becomes "" and every route is `base + "/..."`.
   */
  function NormalizeBasePath(env: string): (r: string)
    ensures r == "" || r[0] == '/'
    ensures env == "" || env == "/" ==> r == ""
    ensures HasPrefix(env, "/") && !HasSuffix(env, "/") ==> r == env
    ensures env != "" && !HasPrefix(env, "/") && !HasSuffix(env, "/") ==> r == "/" + env
    ensures HasPrefix(env, "/") && HasSuffix(env, "/") ==> r == env[..|env| - 1]
    ensures env != "" && !HasPrefix(env, "/") && HasSuffix(env, "/") ==> r == "/" + env[..|env| - 1]
    ensures |r| <= |env| + 1
  {
    var p := if env == "" then "/" else env;
    var q := if HasPrefix(p, "/") then p else "/" + p;
    TrimSuffix(q, "/")
  }

  /** Only one trailing '/' goes: "//" leaves the base "/", and routes then start with "//". */
  lemma OnlyOneSlashTrimmed()
    ensures NormalizeBasePath("//") == "/"
    ensures NormalizeBasePath("/movies//") == "/movies/"
  {
  }

  /** Normalising a normal base path changes nothing: the result is a fixpoint unless it still ends in '/'. */
  lemma NormalizeIsIdempotent(env: string)
    requires !HasSuffix(NormalizeBasePath(env), "/")
    ensures NormalizeBasePath(NormalizeBasePath(env)) == NormalizeBasePath(env)
  {
  }

  /** The data one media card is rendered with. */
  datatype Card = Card(id: int, title: string, year: string, overview: string, kind: string)

  const MaxCards := 20

  /** A card's title: Title, or Name when Title is empty. */
  function CardTitle(c: MediaContent): (r: string)
    ensures r == "" <==> c.title == "" && c.name == ""
    ensures c.title != "" ==> r == c.title
  {
    if c.title == "" then c.name else c.title
  }

  /** The year of a "2006-01-02" date printed with `%d`, or "" when the date does not parse. */
  function YearOf(date: string): (r: string)
    ensures r != "" <==> ValidIsoDate(date)
    ensures r != "" ==> AllDigits(r)
  {
    if ValidIsoDate(date) then NatDigits(Year(date)) else ""
  }

  lemma YearOfRoundTrip(date: string)
    requires ValidIsoDate(date)
    ensures ParseDecimal(YearOf(date)) == Some(Year(date) as int)
  {
    DecimalRoundTrip(Year(date));
  }

  /** A card's type: "movie" for a release date, else "series" for a first-air date, else none. */
  function CardKind(c: MediaContent): (r: string)
    ensures r == "movie" <==> IsMovie(c)
    ensures r == "series" <==> !IsMovie(c) && c.firstAirDate != ""
    ensures r == "" <==> !IsMovie(c) && c.firstAirDate == ""
  {
    if c.releaseDate != "" then "movie" else if c.firstAirDate != "" then "series" else ""
  }

  /** The date a card's year comes from is the date that decided its type; a release date that does not parse gives no year at all. */
  function CardYear(c: MediaContent): (r: string)
    ensures IsMovie(c) ==> r == YearOf(c.releaseDate)
    ensures CardKind(c) == "series" ==> r == YearOf(c.firstAirDate)
    ensures CardKind(c) == "" ==> r == ""
  {
    if c.releaseDate != "" then YearOf(c.releaseDate)
    else if c.firstAirDate != "" then YearOf(c.firstAirDate)
    else ""
  }

  /** An item gets a card only when it has a title (after the Name fallback) and a poster. */
  predicate ShowsCard(c: MediaContent) {
    CardTitle(c) != "" && c.posterPath != ""
  }

  function CardOf(c: MediaContent): Card {
    Card(c.id, CardTitle(c), CardYear(c), c.overview, CardKind(c))
  }

  /** The cards of `items` in order: one per item that shows a card and whose card rendered. */
  function CardsOf(items: seq<MediaContent>, renders: Card -> bool): (r: seq<Card>)
    ensures |r| <= |items|
    ensures forall k :: k in r ==> exists i :: 0 <= i < |items| && ShowsCard(items[i]) && CardOf(items[i]) == k
    ensures forall i :: 0 <= i < |items| && ShowsCard(items[i]) && renders(CardOf(items[i])) ==> CardOf(items[i]) in r
    ensures forall k :: k in r ==> k.title != "" && renders(k)
    decreases |items|
  {
    if |items| == 0 then []
    else
      var last := items[|items| - 1];
      var before := CardsOf(items[..|items| - 1], renders);
      assert forall i :: 0 <= i < |items| - 1 ==> items[..|items| - 1][i] == items[i];
      if ShowsCard(last) && renders(CardOf(last)) then before + [CardOf(last)] else before
  }

  /** One item yields its own card, or nothing. */
  lemma CardsOfSingle(c: MediaContent, renders: Card -> bool)
    ensures CardsOf([c], renders) == (if ShowsCard(c) && renders(CardOf(c)) then [CardOf(c)] else [])
  {
    assert [c][..0] == [];
  }

  /** Cards keep the items' order: the cards of a concatenation are the concatenation of the cards. */
  lemma {:induction false} CardsOfConcat(a: seq<MediaContent>, b: seq<MediaContent>, renders: Card -> bool)
    ensures CardsOf(a + b, renders) == CardsOf(a, renders) + CardsOf(b, renders)
    decreases |b|
  {
    if |b| == 0 {
      assert a + b == a;
    } else {
      var b' := b[..|b| - 1];
      assert (a + b)[..|a + b| - 1] == a + b';
      assert (a + b)[|a + b| - 1] == b[|b| - 1];
      CardsOfConcat(a, b', renders);
    }
  }

  /** The `/home` loop over at most the first twenty items. */
  method BuildCards(items: seq<MediaContent>, renders: Card -> bool) returns (cards: seq<Card>)
    ensures cards == CardsOf(items[..Min(|items|, MaxCards)], renders)
    ensures |cards| <= MaxCards
  {
    var n := Min(|items|, MaxCards);
    cards := [];
    var i := 0;
    while i < n
      invariant 0 <= i <= n
      invariant cards == CardsOf(items[..i], renders)
    {
      var item := items[i];
      assert items[..i + 1][..i] == items[..i];
      if ShowsCard(item) && renders(CardOf(item)) {
        cards := cards + [CardOf(item)];
      }
      i := i + 1;
    }
  }

  /** What `/home` answers. */
  datatype HomeReply =
    | MissingType
    | ServerError(error: string)
    | InvalidType
    | NoContent
    | NoValidContent
    | Cards(cards: seq<Card>)

  function StatusOf(reply: HomeReply): int {
    match reply
    case MissingType => 400
    case ServerError(_) => 500
    case InvalidType => 400
    case _ => 200
  }

  datatype HomeResult = HomeResult(cache: HomeCache.CacheState, reply: HomeReply)

  /**
    GET /home?type=...: a missing type is refused before the cache is
    read; otherwise the home page is read through the aggregate cache, a
    read error is a 500, an unknown type a 400, and a known list becomes
    the cards of its first twenty items.
   */
  method HomeRoute(mediaType: string, cache: HomeCache.CacheState, o: HomeCache.Outcomes, now: int, renders: Card -> bool)
    returns (r: HomeResult)
    ensures mediaType == "" ==> r == HomeResult(cache, MissingType)
    ensures mediaType != "" ==> r.cache == HomeCache.Get(cache, o, now).state
    ensures mediaType != "" && HomeCache.Get(cache, o, now).data.Err? ==>
      r.reply == ServerError(HomeCache.Get(cache, o, now).data.error)
    ensures mediaType != "" && HomeCache.Get(cache, o, now).data.Ok? && CategoryOfKey(mediaType).None? ==>
      r.reply == InvalidType
    ensures mediaType != "" && HomeCache.Get(cache, o, now).data.Ok? && CategoryOfKey(mediaType).Some? ==>
      var items := HomeCache.Get(cache, o, now).data.value.List(CategoryOfKey(mediaType).value);
      var cards := CardsOf(items[..Min(|items|, MaxCards)], renders);
      r.reply == (if |items| == 0 then NoContent else if |cards| == 0 then NoValidContent else Cards(cards))
    ensures StatusOf(r.reply) == 400 <==>
      mediaType == "" || (HomeCache.Get(cache, o, now).data.Ok? && CategoryOfKey(mediaType).None?)
  {
    if mediaType == "" {
      return HomeResult(cache, MissingType);
    }
    var read := HomeCache.Get(cache, o, now);
    if read.data.Err? {
      return HomeResult(read.state, ServerError(read.data.error));
    }
    var category := CategoryOfKey(mediaType);
    if category.None? {
      return HomeResult(read.state, InvalidType);
    }
    var items := read.data.value.List(category.value);
    if |items| == 0 {
      return HomeResult(read.state, NoContent);
    }
    var cards := BuildCards(items, renders);
    if |cards| == 0 {
      return HomeResult(read.state, NoValidContent);
    }
    return HomeResult(read.state, Cards(cards));
  }

  /** A crew credit. */
  datatype CrewMember = CrewMember(name: string, job: string)

  /** The director and screenplay fields: the first credit with that job, or "N/A". */
  function FirstWithJob(crew: seq<CrewMember>, job: string): (r: string)
    ensures (forall i :: 0 <= i < |crew| ==> crew[i].job != job) ==> r == "N/A"
    ensures forall i :: 0 <= i < |crew| && crew[i].job == job && (forall j :: 0 <= j < i ==> crew[j].job != job) ==>
      r == crew[i].name
    decreases |crew|
  {
    if |crew| == 0 then "N/A"
    else if crew[0].job == job then crew[0].name
    else FirstWithJob(crew[1..], job)
  }

  /** The names of all credits with the job "Producer", in credit order. */
  function ProducerNames(crew: seq<CrewMember>): (r: seq<string>)
    ensures |r| <= |crew|
    ensures forall n :: n in r ==> exists i :: 0 <= i < |crew| && crew[i].job == "Producer" && crew[i].name == n
    ensures forall i :: 0 <= i < |crew| && crew[i].job == "Producer" ==> crew[i].name in r
    decreases |crew|
  {
    if |crew| == 0 then []
    else
      var rest := ProducerNames(crew[1..]);
      assert forall i :: 1 <= i < |crew| ==> crew[1..][i - 1] == crew[i];
      if crew[0].job == "Producer" then [crew[0].name] + rest else rest
  }

  /** One credit yields its name exactly when it is a producer credit. */
  lemma ProducerNamesSingle(c: CrewMember)
    ensures ProducerNames([c]) == if c.job == "Producer" then [c.name] else []
  {
    assert [c][1..] == [];
  }

  /** Producer names of two credit lists in a row are the names of the first followed by those of the second. */
  lemma {:induction false} ProducerNamesConcat(a: seq<CrewMember>, b: seq<CrewMember>)
    ensures ProducerNames(a + b) == ProducerNames(a) + ProducerNames(b)
    decreases |a|
  {
    if |a| == 0 {
      assert a + b == b;
    } else {
      assert (a + b)[0] == a[0];
      assert (a + b)[1..] == a[1..] + b;
      ProducerNamesConcat(a[1..], b);
    }
  }

  /** Credit `i` is a producer and no earlier credit is. */
  predicate IsFirstProducer(crew: seq<CrewMember>, i: int) {
    0 <= i < |crew| && crew[i].job == "Producer" && forall j :: 0 <= j < i ==> crew[j].job != "Producer"
  }

  /** Credit `i` is a producer and no later credit is. */
  predicate IsLastProducer(crew: seq<CrewMember>, i: int) {
    0 <= i < |crew| && crew[i].job == "Producer" && forall j :: i < j < |crew| ==> crew[j].job != "Producer"
  }

  /** The first producer credited heads the list of producer names. */
  lemma {:induction false} FirstProducerHeadsNames(crew: seq<CrewMember>, i: int)
    requires IsFirstProducer(crew, i)
    ensures |ProducerNames(crew)| > 0 && ProducerNames(crew)[0] == crew[i].name
    decreases |crew|
  {
    if i > 0 {
      assert forall j :: 0 <= j < i - 1 ==> crew[1..][j] == crew[j + 1];
      FirstProducerHeadsNames(crew[1..], i - 1);
    }
  }

  /** The last producer credited ends the list of producer names. */
  lemma {:induction false} LastProducerEndsNames(crew: seq<CrewMember>, i: int)
    requires IsLastProducer(crew, i)
    ensures |ProducerNames(crew)| > 0 && ProducerNames(crew)[|ProducerNames(crew)| - 1] == crew[i].name
    decreases |crew|
  {
    var rest := ProducerNames(crew[1..]);
    if i > 0 {
      assert forall j :: i - 1 < j < |crew| - 1 ==> crew[1..][j] == crew[j + 1];
      LastProducerEndsNames(crew[1..], i - 1);
    } else {
      assert forall k :: 0 <= k < |crew| - 1 ==> crew[1..][k].job != "Producer" by {
        forall k | 0 <= k < |crew| - 1 ensures crew[1..][k].job != "Producer" {
          assert crew[1..][k] == crew[k + 1];
        }
      }
      NoProducerNoNames(crew[1..]);
    }
  }

  /** Without a producer credit there are no producer names. */
  lemma NoProducerNoNames(crew: seq<CrewMember>)
    ensures (forall i :: 0 <= i < |crew| ==> crew[i].job != "Producer") ==> ProducerNames(crew) == []
  {
    var names := ProducerNames(crew);
    if |names| > 0 {
      assert names[0] in names;
    }
  }

  /** Every first producer credited heads the producer names. */
  lemma ProducerNamesStart(crew: seq<CrewMember>)
    ensures forall i :: IsFirstProducer(crew, i) ==> |ProducerNames(crew)| > 0 && ProducerNames(crew)[0] == crew[i].name
  {
    forall i | IsFirstProducer(crew, i)
      ensures |ProducerNames(crew)| > 0 && ProducerNames(crew)[0] == crew[i].name
    {
      FirstProducerHeadsNames(crew, i);
    }
  }

  /** Every last producer credited ends the producer names. */
  lemma ProducerNamesFinish(crew: seq<CrewMember>)
    ensures forall i :: IsLastProducer(crew, i) ==>
      |ProducerNames(crew)| > 0 && ProducerNames(crew)[|ProducerNames(crew)| - 1] == crew[i].name
  {
    forall i | IsLastProducer(crew, i)
      ensures |ProducerNames(crew)| > 0 && ProducerNames(crew)[|ProducerNames(crew)| - 1] == crew[i].name
    {
      LastProducerEndsNames(crew, i);
    }
  }

  /** The producer field: the producers' names separated by ", ", starting with the first producer credited and ending with the last. */
  function Producers(crew: seq<CrewMember>): (r: string)
    ensures (forall i :: 0 <= i < |crew| ==> crew[i].job != "Producer") ==> r == ""
    ensures forall i :: IsFirstProducer(crew, i) ==>
      HasPrefix(r, crew[i].name)
    ensures forall i :: IsLastProducer(crew, i) ==>
      HasSuffix(r, crew[i].name)
    ensures |ProducerNames(crew)| == 1 ==> r == ProducerNames(crew)[0]
  {
    NoProducerNoNames(crew);
    ProducerNamesStart(crew);
    ProducerNamesFinish(crew);
    Join(ProducerNames(crew), ", ")
  }

  /** The producer field of two credit lists in a row: either side without producers adds nothing, otherwise the two fields are joined by ", ". */
  lemma ProducersConcat(a: seq<CrewMember>, b: seq<CrewMember>)
    ensures ProducerNames(a) == [] ==> Producers(a + b) == Producers(b)
    ensures ProducerNames(b) == [] ==> Producers(a + b) == Producers(a)
    ensures |ProducerNames(a)| > 0 && |ProducerNames(b)| > 0 ==>
      Producers(a + b) == Producers(a) + ", " + Producers(b)
  {
    ProducerNamesConcat(a, b);
    var na, nb := ProducerNames(a), ProducerNames(b);
    if na == [] {
      assert na + nb == nb;
    } else if nb == [] {
      assert na + nb == na;
    } else {
      JoinConcat(na, nb, ", ");
    }
  }

  /** A Go map lookup `map[bool]string{true: "s"}[n != 1]`: the missing key `false` yields "". */
  function PluralSuffix(n: int): (r: string)
    ensures r == "s" <==> n != 1
    ensures r == "" <==> n == 1
  {
    var m := map[true := "s"];
    if (n != 1) in m then m[n != 1] else ""
  }

  /** The duration field: runtime in minutes for a movie, otherwise the season count with its plural. */
  function Duration(contentType: string, runtime: int, seasons: int): (r: string)
    ensures contentType == "movie" ==> r == Decimal(runtime) + " minutes"
    ensures contentType != "movie" && seasons == 1 ==> r == "1 Season"
    ensures contentType != "movie" && seasons != 1 ==> r == Decimal(seasons) + " Seasons"
  {
    if contentType == "movie" then Decimal(runtime) + " minutes"
    else Decimal(seasons) + " Season" + PluralSuffix(seasons)
  }

  /** The count a duration string starts with reads back as the number it was made from. */
  lemma DurationCountRoundTrip(contentType: string, runtime: int, seasons: int)
    ensures var n := if contentType == "movie" then runtime else seasons;
      var r := Duration(contentType, runtime, seasons);
      HasPrefix(r, Decimal(n) + " ") && ParseDecimal(r[..|Decimal(n)|]) == Some(n)
  {
    var n := if contentType == "movie" then runtime else seasons;
    var r := Duration(contentType, runtime, seasons);
    var d := Decimal(n);
    if contentType == "movie" {
      assert r == (d + " ") + "minutes";
    } else if seasons == 1 {
      assert d == "1" by { assert NatDigits(1) == "1"; }
      assert r == (d + " ") + "Season";
    } else {
      assert r == (d + " ") + "Seasons";
    }
    PrefixOfConcat(d, " ");
    assert r[..|d|] == d;
    DecimalRoundTrip(n);
  }

  /** The release-date and year fields of a detail page. */
  datatype ReleaseInfo = ReleaseInfo(releaseDate: string, year: string)

  /**
    The date shown on a detail page comes from ReleaseDate when set, else
    from FirstAirDate; a set ReleaseDate that does not parse leaves both
    fields empty rather than falling back.
   */
  function DetailRelease(releaseDate: string, firstAirDate: string): (r: ReleaseInfo)
    ensures releaseDate != "" && ValidIsoDate(releaseDate) ==> r == ReleaseInfo(LongDate(releaseDate), YearOf(releaseDate))
    ensures releaseDate != "" && !ValidIsoDate(releaseDate) ==> r == ReleaseInfo("", "")
    ensures releaseDate == "" && ValidIsoDate(firstAirDate) ==> r == ReleaseInfo(LongDate(firstAirDate), YearOf(firstAirDate))
    ensures releaseDate == "" && !ValidIsoDate(firstAirDate) ==> r == ReleaseInfo("", "")
    ensures r.releaseDate == "" <==> r.year == ""
  {
    var date := if releaseDate != "" then releaseDate else firstAirDate;
    if date != "" && ValidIsoDate(date) then ReleaseInfo(LongDate(date), YearOf(date)) else ReleaseInfo("", "")
  }

  /** A home card and the detail page of the same entry show the same year. */
  lemma CardAndDetailYearsAgree(c: MediaContent)
    ensures DetailRelease(c.releaseDate, c.firstAirDate).year == CardYear(c)
  {
  }

  /** The detail page's title: Title, or Name when Title is empty (the reverse preference of the TMDB series listing). */
  function DetailTitle(title: string, name: string): (r: string)
    ensures r == "" <==> title == "" && name == ""
    ensures title != "" ==> r == title
    ensures title == "" ==> r == name
  {
    if title == "" then name else title
  }

  /**
    The season numbers a series page lists, 1 to NumberOfSeasons; other
    content lists none. A negative count makes `make` panic, which is None.
   */
  function SeasonNumbers(contentType: string, numberOfSeasons: int): (r: Option<seq<int>>)
    ensures contentType != "series" ==> r == Some([])
    ensures contentType == "series" && numberOfSeasons < 0 ==> r.None?
    ensures contentType == "series" && numberOfSeasons >= 0 ==>
      r.Some? && |r.value| == numberOfSeasons && forall i :: 0 <= i < |r.value| ==> r.value[i] == i + 1
  {
    if contentType != "series" then Some([])
    else if numberOfSeasons < 0 then None
    else Some(seq(numberOfSeasons, i => i + 1))
  }

  /** The backdrop link, present only when the entry has a backdrop path. */
  function BackdropLink(id: int, backdropPath: string): (r: Option<string>)
    ensures r.Some? <==> backdropPath != ""
    ensures r.Some? ==> HasPrefix(r.value, "../api/image/") && HasSuffix(r.value, "/backdrop")
    ensures r.Some? ==> |r.value| > 22 && ParseDecimal(r.value[13..|r.value| - 9]) == Some(id)
  {
    if backdropPath == "" then None
    else
      var link := "../api/image/" + Decimal(id) + "/backdrop";
      PrefixOfConcat("../api/image/", Decimal(id) + "/backdrop");
      assert link == "../api/image/" + (Decimal(id) + "/backdrop");
      SuffixOfConcat("../api/image/" + Decimal(id), "/backdrop");
      assert link[13..|link| - 9] == Decimal(id);
      DecimalRoundTrip(id);
      Some(link)
  }
}

=== FILE: gopath.dfy ===
/** The parts of Go's `path/filepath` the image caches use, for slash-separated paths. */
module GoPath {
  import opened GoStrings

  /**
    filepath.Ext scans `path[..i]` backwards: it stops with "" at a '/' or
    at the start, and returns the suffix from the first '.' it meets.
   */
  function ExtFrom(path: string, i: nat): (r: string)
    requires i <= |path|
    requires forall k :: i <= k < |path| ==> path[k] != '.' && path[k] != '/'
    ensures r == "" || (HasSuffix(path, r) && r[0] == '.' && forall k :: 0 < k < |r| ==> r[k] != '.' && r[k] != '/')
    ensures r == "" ==> forall k :: 0 <= k < |path| && path[k] == '.' ==> exists j :: k < j < |path| && path[j] == '/'
    decreases i
  {
    if i == 0 then ""
    else if path[i - 1] == '/' then
      assert forall k :: 0 <= k < |path| && path[k] == '.' ==> k < i - 1 && path[i - 1] == '/';
      ""
    else if path[i - 1] == '.' then path[i - 1..]
    else ExtFrom(path, i - 1)
  }

  /**
    filepath.Ext: the suffix of `path` that starts at the last '.' of its
    final element, or "" when that element has no '.'.
   */
  function Ext(path: string): (r: string)
    ensures r == "" || (HasSuffix(path, r) && r[0] == '.' && forall k :: 0 < k < |r| ==> r[k] != '.' && r[k] != '/')
    ensures r == "" ==> forall k :: 0 <= k < |path| && path[k] == '.' ==> exists j :: k < j < |path| && path[j] == '/'
  {
    ExtFrom(path, |path|)
  }

  /** The extension both cache-name generators use: filepath.Ext, or ".jpg" when it is empty. */
  function ExtOrJpg(url: string): (r: string)
    ensures 1 <= |r| && r[0] == '.'
    ensures forall k :: 0 < k < |r| ==> r[k] != '.' && r[k] != '/'
    ensures Ext(url) != "" ==> HasSuffix(url, r) && r == Ext(url)
    ensures Ext(url) == "" ==> r == ".jpg"
  {
    if Ext(url) == "" then ".jpg" else Ext(url)
  }

  /** filepath.IsAbs on Unix: the path starts with '/'. */
  predicate IsAbs(path: string) {
    HasPrefix(path, "/")
  }

  /**
    filepath.Join(dir, name) for a cache directory without a trailing '/'
    and a single file-name element; the cleaning Join also does is the
    identity on such arguments.
   */
  function JoinFile(dir: string, name: string): string {
    if name == "" then dir else dir + "/" + name
  }
}

=== FILE: gostrings.dfy ===
/** The few functions of Go's `strings` package that the core relies on. */
module GoStrings {

  /** strings.HasPrefix */
  predicate HasPrefix(s: string, prefix: string) {
    |prefix| <= |s| && s[..|prefix|] == prefix
  }

  /** strings.HasSuffix */
  predicate HasSuffix(s: string, suffix: string) {
    |suffix| <= |s| && s[|s| - |suffix|..] == suffix
  }

  /** strings.TrimSuffix: removes one occurrence of `suffix` at the end, if present. */
  function TrimSuffix(s: string, suffix: string): string {
    if HasSuffix(s, suffix) then s[..|s| - |suffix|] else s
  }

  /** The combined length of all parts. */
  function TotalLength(parts: seq<string>): nat
    decreases |parts|
  {
    if |parts| == 0 then 0 else |parts[0]| + TotalLength(parts[1..])
  }

  /**
    strings.Join: the parts in order, one separator between neighbours, so
    the result starts with the first part, ends with the last, and is as
    long as the parts plus one separator fewer than there are parts.
   */
  function Join(parts: seq<string>, sep: string): (r: string)
    ensures |parts| == 0 ==> r == ""
    ensures |parts| == 1 ==> r == parts[0]
    ensures |parts| > 0 ==> HasPrefix(r, parts[0]) && HasSuffix(r, parts[|parts| - 1])
    ensures |parts| > 0 ==> |r| == TotalLength(parts) + |sep| * (|parts| - 1)
    decreases |parts|
  {
    if |parts| == 0 then ""
    else if |parts| == 1 then
      assert parts[0][..|parts[0]|] == parts[0];
      assert parts[0][|parts[0]| - |parts[0]|..] == parts[0];
      parts[0]
    else
      var rest := Join(parts[1..], sep);
      assert parts[1..][|parts[1..]| - 1] == parts[|parts| - 1];
      JoinedShape(parts[0], sep, rest, parts[|parts| - 1]);
      SeparatorCount(|sep|, |parts|);
      parts[0] + (sep + rest)
  }

  /** Join of two or more parts is the first part, a separator, and the join of the others. */
  lemma JoinStep(parts: seq<string>, sep: string)
    requires |parts| > 1
    ensures Join(parts, sep) == parts[0] + sep + Join(parts[1..], sep)
  {
  }

  /** Joining two non-empty lists at once is joining each and putting one separator between them. */
  lemma {:induction false} JoinConcat(a: seq<string>, b: seq<string>, sep: string)
    requires |a| > 0 && |b| > 0
    ensures Join(a + b, sep) == Join(a, sep) + sep + Join(b, sep)
    decreases |a|
  {
    var ab := a + b;
    assert ab[0] == a[0] && ab[1..] == a[1..] + b;
    JoinStep(ab, sep);
    if |a| == 1 {
      assert a[1..] + b == b;
    } else {
      JoinConcat(a[1..], b, sep);
      JoinStep(a, sep);
      Regroup(a[0], sep, Join(a[1..], sep), Join(b, sep));
    }
  }

  /** Moving the brackets in a chain of five concatenations. */
  lemma Regroup(x: string, sep: string, y: string, z: string)
    ensures x + sep + (y + sep + z) == (x + sep + y) + sep + z
  {
  }

  lemma PrefixOfConcat(a: string, b: string)
    ensures HasPrefix(a + b, a)
  {
    assert (a + b)[..|a|] == a;
  }

  lemma SuffixOfConcat(a: string, b: string)
    ensures HasSuffix(a + b, b)
  {
    assert (a + b)[|a + b| - |b|..] == b;
  }

  /** Putting `first` and a separator before a string that ends with `last` keeps `last` at the end and `first` at the start. */
  lemma JoinedShape(first: string, sep: string, rest: string, last: string)
    requires HasSuffix(rest, last)
    ensures HasPrefix(first + (sep + rest), first)
    ensures HasSuffix(first + (sep + rest), last)
    ensures |first + (sep + rest)| == |first| + |sep| + |rest|
  {
    var r := first + (sep + rest);
    assert r[..|first|] == first;
    assert r[|r| - |last|..] == rest[|rest| - |last|..];
  }

  /** One more part adds one more separator. */
  lemma SeparatorCount(width: nat, n: int)
    requires n > 1
    ensures width * (n - 1) == width * (n - 2) + width
  {
  }
}

=== FILE: home_cache.dfy ===
/**
  The home-page aggregate cache: one snapshot slot, refreshed by seven
  upstream tasks with an all-or-nothing commit, and served while younger
  than three hours.

  Time is an integer count of nanoseconds (Go's `time.Duration` unit).
  The seven goroutines become a record of task outcomes; the upstream
  answers they are computed from are an input.
 */
module HomeCache {
  import opened Wrappers
  import opened Media

  const Hour := 3_600_000_000_000
  const CacheRefreshHours := 3
  /** How long a snapshot is served without refreshing. */
  const Ttl := Hour * CacheRefreshHours

  type TaskOutcome = Result<seq<MediaContent>, string>

  /** The result each goroutine reports: its list, or the error it sent on the error channel. */
  datatype Outcomes = Outcomes(
    trendingTV: TaskOutcome,
    trendingMovies: TaskOutcome,
    popularTV: TaskOutcome,
    popularMovies: TaskOutcome,
    upcomingMovies: TaskOutcome,
    recommendedTV: TaskOutcome,
    recommendedMovies: TaskOutcome)
  {
    function Of(c: Category): TaskOutcome {
      match c
      case TrendingTV => trendingTV
      case TrendingMovies => trendingMovies
      case PopularTV => popularTV
      case PopularMovies => popularMovies
      case UpcomingMovies => upcomingMovies
      case RecommendedTV => recommendedTV
      case RecommendedMovies => recommendedMovies
    }
  }

  /**
    What the upstream answers to the calls one refresh makes. The popular
    lists are fetched twice, once for their own task and once to seed a
    recommendation task; a recommendation answer depends on its seed id.
   */
  datatype Upstream = Upstream(
    trendingTV: Fetch,
    trendingMovies: Fetch,
    popularTV: Fetch,
    popularMovies: Fetch,
    upcomingMovies: Fetch,
    popularTVForSeed: Fetch,
    recommendTV: int -> Fetch,
    popularMoviesForSeed: Fetch,
    recommendMovies: int -> Fetch)

  /** A list task: the fetched results when there are any, the empty list otherwise; a failed fetch is the task's error. */
  function ListTask(f: Fetch): (r: TaskOutcome)
    ensures f.FetchFailed? ==> r == Err(f.error)
    ensures f.Fetched? ==> r.Ok? && r.value == f.results
  {
    match f
    case FetchFailed(e) => Err(e)
    case Fetched(results) => Ok(if |results| > 0 then results else [])
  }

  /** A recommendation task's outcome and the seed id it called the recommendation endpoint with, if it did. */
  datatype RecommendationRun = RecommendationRun(outcome: TaskOutcome, seed: Option<int>)

  /**
    A recommendation task: fetch the popular list; with no items the list
    stays empty and no recommendation call is made; otherwise recommend
    from the first item's id.
   */
  function RecommendationTask(popular: Fetch, recommend: int -> Fetch): (r: RecommendationRun)
    ensures popular.FetchFailed? ==> r.outcome == Err(popular.error) && r.seed.None?
    ensures popular.Fetched? && |popular.results| == 0 ==> r.outcome == Ok([]) && r.seed.None?
    ensures popular.Fetched? && |popular.results| > 0 ==>
      r.seed == Some(popular.results[0].id) && r.outcome == ListTask(recommend(popular.results[0].id))
  {
    match popular
    case FetchFailed(e) => RecommendationRun(Err(e), None)
    case Fetched(results) =>
      if |results| > 0 then
        var seed := results[0].id;
        RecommendationRun(ListTask(recommend(seed)), Some(seed))
      else RecommendationRun(Ok([]), None)
  }

  /** The fan-out: every task's outcome, and the seeds the two recommendation tasks used. */
  datatype Fanout = Fanout(outcomes: Outcomes, seedTV: Option<int>, seedMovies: Option<int>)

  /** A list outcome reports its fetch: the fetched items, or the fetch's error. */
  predicate Reports(o: TaskOutcome, f: Fetch) {
    (f.Fetched? ==> o == Ok(f.results)) && (f.FetchFailed? ==> o == Err(f.error))
  }

  /**
    The fan-out of one refresh: each list task reports its own fetch; a
    recommendation task calls the recommendation endpoint exactly when its
    seeding popular fetch has items, with the first item's id, and reports
    that call; otherwise it reports the seeding fetch's error or an empty list.
   */
  function RunTasks(u: Upstream): (r: Fanout)
    ensures Reports(r.outcomes.trendingTV, u.trendingTV) && Reports(r.outcomes.trendingMovies, u.trendingMovies)
    ensures Reports(r.outcomes.popularTV, u.popularTV) && Reports(r.outcomes.popularMovies, u.popularMovies)
    ensures Reports(r.outcomes.upcomingMovies, u.upcomingMovies)
    ensures r.seedTV.Some? <==> u.popularTVForSeed.Fetched? && |u.popularTVForSeed.results| > 0
    ensures r.seedTV.Some? ==>
      r.seedTV.value == u.popularTVForSeed.results[0].id && Reports(r.outcomes.recommendedTV, u.recommendTV(r.seedTV.value))
    ensures r.seedTV.None? && u.popularTVForSeed.FetchFailed? ==> r.outcomes.recommendedTV == Err(u.popularTVForSeed.error)
    ensures r.seedTV.None? && u.popularTVForSeed.Fetched? ==> r.outcomes.recommendedTV == Ok([])
    ensures r.seedMovies.Some? <==> u.popularMoviesForSeed.Fetched? && |u.popularMoviesForSeed.results| > 0
    ensures r.seedMovies.Some? ==>
      r.seedMovies.value == u.popularMoviesForSeed.results[0].id
      && Reports(r.outcomes.recommendedMovies, u.recommendMovies(r.seedMovies.value))
    ensures r.seedMovies.None? && u.popularMoviesForSeed.FetchFailed? ==> r.outcomes.recommendedMovies == Err(u.popularMoviesForSeed.error)
    ensures r.seedMovies.None? && u.popularMoviesForSeed.Fetched? ==> r.outcomes.recommendedMovies == Ok([])
  {
    var tv := RecommendationTask(u.popularTVForSeed, u.recommendTV);
    var movies := RecommendationTask(u.popularMoviesForSeed, u.recommendMovies);
    Fanout(
      Outcomes(
        ListTask(u.trendingTV), ListTask(u.trendingMovies), ListTask(u.popularTV),
        ListTask(u.popularMovies), ListTask(u.upcomingMovies), tv.outcome, movies.outcome),
      tv.seed, movies.seed)
  }

  /** The first error among the tasks of `cats`, scanning in order. */
  function FirstErrorIn(o: Outcomes, cats: seq<Category>): (r: Option<string>)
    ensures r.None? <==> forall i :: 0 <= i < |cats| ==> o.Of(cats[i]).Ok?
    ensures r.Some? ==> exists i :: 0 <= i < |cats| && o.Of(cats[i]) == Err(r.value)
    decreases |cats|
  {
    if |cats| == 0 then None
    else if o.Of(cats[0]).Err? then Some(o.Of(cats[0]).error)
    else
      var r := FirstErrorIn(o, cats[1..]);
      assert forall i :: 1 <= i < |cats| ==> cats[i] == cats[1..][i - 1];
      r
  }

  lemma AllCategoriesListed(c: Category)
    ensures exists i :: 0 <= i < |AllCategories| && AllCategories[i] == c
  {
    match c
    case TrendingTV => assert AllCategories[0] == c;
    case TrendingMovies => assert AllCategories[1] == c;
    case PopularTV => assert AllCategories[2] == c;
    case PopularMovies => assert AllCategories[3] == c;
    case UpcomingMovies => assert AllCategories[4] == c;
    case RecommendedTV => assert AllCategories[5] == c;
    case RecommendedMovies => assert AllCategories[6] == c;
  }

  /**
    The error `refresh` returns, if any task failed. The source returns the
    first error received on its channel, which depends on which goroutine
    finished first; the model takes the first in list order.
   */
  function FirstError(o: Outcomes): (r: Option<string>)
    ensures r.None? <==> forall c :: o.Of(c).Ok?
    ensures r.Some? ==> exists c :: o.Of(c) == Err(r.value)
  {
    var r := FirstErrorIn(o, AllCategories);
    assert r.None? ==> forall c :: o.Of(c).Ok? by {
      if r.None? {
        forall c ensures o.Of(c).Ok? { AllCategoriesListed(c); }
      }
    }
    r
  }

  /** The composite the tasks built, once every task succeeded. */
  function Composite(o: Outcomes): HomePageData
    requires forall c :: o.Of(c).Ok?
  {
    assert o.Of(TrendingTV).Ok? && o.Of(TrendingMovies).Ok? && o.Of(PopularTV).Ok? && o.Of(PopularMovies).Ok?;
    assert o.Of(UpcomingMovies).Ok? && o.Of(RecommendedTV).Ok? && o.Of(RecommendedMovies).Ok?;
    HomePageData(
      o.trendingTV.value, o.trendingMovies.value, o.popularTV.value, o.popularMovies.value,
      o.upcomingMovies.value, o.recommendedTV.value, o.recommendedMovies.value)
  }

  /** The cache's global state: the snapshot pointer (nil at start) and the time of the last successful refresh. */
  datatype CacheState = CacheState(snapshot: Option<HomePageData>, lastRefresh: int)

  const InitialState := CacheState(None, 0)

  datatype RefreshResult = RefreshResult(state: CacheState, error: Option<string>)

  /**
    refreshHomePageCache after all tasks joined: any failure returns an
    error and leaves the state as it was; otherwise the new composite is
    stored and the refresh time set to `now`.
   */
  function Refresh(s: CacheState, o: Outcomes, now: int): (r: RefreshResult)
    ensures r.error.Some? <==> exists c :: o.Of(c).Err?
    ensures r.error.Some? ==> r.state == s && exists c :: o.Of(c) == Err(r.error.value)
    ensures r.error.None? ==> r.state.lastRefresh == now && r.state.snapshot.Some?
    ensures r.error.None? ==> forall c :: o.Of(c).Ok? && r.state.snapshot.value.List(c) == o.Of(c).value
  {
    match FirstError(o)
    case Some(e) => RefreshResult(s, Some(e))
    case None => RefreshResult(CacheState(Some(Composite(o)), now), None)
  }

  /** A stored snapshot younger than the TTL (a clock that went backwards also counts as young). */
  predicate Fresh(s: CacheState, now: int) {
    s.snapshot.Some? && now - s.lastRefresh < Ttl
  }

  datatype GetResult = GetResult(state: CacheState, data: Result<HomePageData, string>, refreshed: bool)

  /**
    getHomePageData: serve a fresh snapshot without touching the upstream;
    otherwise refresh, and return the refresh's error if it failed, even
    when an older snapshot is still stored.
   */
  function Get(s: CacheState, o: Outcomes, now: int): (r: GetResult)
    ensures !r.refreshed <==> Fresh(s, now)
    ensures !r.refreshed ==> r.state == s && r.data == Ok(s.snapshot.value)
    ensures r.refreshed ==> (r.data.Ok? <==> forall c :: o.Of(c).Ok?)
    ensures r.refreshed && r.data.Err? ==> r.state == s && exists c :: o.Of(c) == Err(r.data.error)
    ensures r.refreshed && r.data.Ok? ==> r.state == CacheState(Some(r.data.value), now)
    ensures r.refreshed && r.data.Ok? ==> forall c :: o.Of(c).Ok? && r.data.value.List(c) == o.Of(c).value
  {
    if Fresh(s, now) then GetResult(s, Ok(s.snapshot.value), false)
    else
      var refresh := Refresh(s, o, now);
      match refresh.error
      case Some(e) => GetResult(s, Err(e), true)
      case None => GetResult(refresh.state, Ok(refresh.state.snapshot.value), true)
  }

  /** One call of getHomePageData: when it happens, and what a refresh at that moment would see. */
  datatype Call = Call(now: int, outcomes: Outcomes)

  /** Final state and number of refresh attempts after a sequence of calls. */
  function Replay(s: CacheState, calls: seq<Call>): (CacheState, nat)
    decreases |calls|
  {
    if |calls| == 0 then (s, 0)
    else
      var r := Get(s, calls[0].outcomes, calls[0].now);
      var rest := Replay(r.state, calls[1..]);
      (rest.0, rest.1 + (if r.refreshed then 1 else 0))
  }

  /** Calls made while a stored snapshot is younger than the TTL never reach the upstream and change nothing. */
  lemma {:induction false} NoRefreshWithinTtl(s: CacheState, calls: seq<Call>)
    requires s.snapshot.Some?
    requires forall i :: 0 <= i < |calls| ==> calls[i].now - s.lastRefresh < Ttl
    ensures Replay(s, calls) == (s, 0)
    decreases |calls|
  {
    if |calls| > 0 {
      NoRefreshWithinTtl(s, calls[1..]);
    }
  }

  /** Once the TTL has elapsed, the next call makes exactly one refresh attempt. */
  lemma ExpiredCallRefreshesOnce(s: CacheState, call: Call)
    requires call.now - s.lastRefresh >= Ttl
    ensures Replay(s, [call]).1 == 1
  {
  }

  /** A failed refresh leaves the snapshot (or its absence) exactly as it was, and the caller gets the error, not the stale snapshot. */
  lemma FailedRefreshServesNoStaleData(s: CacheState, o: Outcomes, now: int, c: Category)
    requires s.snapshot.Some? && !Fresh(s, now) && o.Of(c).Err?
    ensures Get(s, o, now).data.Err?
    ensures Get(s, o, now).state == s
  {
  }

  /** A recommendation list is empty whenever its seeding popular fetch returned no items. */
  lemma NoSeedNoRecommendations(u: Upstream)
    ensures u.popularTVForSeed == Fetched([]) ==> RunTasks(u).outcomes.recommendedTV == Ok([]) && RunTasks(u).seedTV.None?
    ensures u.popularMoviesForSeed == Fetched([]) ==>
      RunTasks(u).outcomes.recommendedMovies == Ok([]) && RunTasks(u).seedMovies.None?
  {
  }
}

=== FILE: image_cache.dfy ===
/**
  The hash-keyed image cache: a cached image is named by the first eight
  bytes of the SHA-256 of its URL plus the URL's extension, downloaded on
  a miss, and served from "/static/cache/".

  The filesystem is the set of paths that exist. SHA-256 is a parameter
  (any function to 32-byte digests); the HTTP response and the outcome of
  writing the file are inputs.
 */
module ImageCache {
  import opened Wrappers
  import opened GoStrings
  import opened Format
  import opened GoPath

  const CacheDir := "static/cache"
  const CacheBaseURL := "/static/cache"

  type FileSystem = set<string>

  type Digest = d: seq<byte> | |d| == 32 witness seq(32, i => 0)

  /** generateCacheFilename(url): 16 hex digits of the digest's first 8 bytes, then the extension. */
  function CacheFilename(url: string, sha256: string -> Digest): (r: string)
    ensures |r| == 16 + |ExtOrJpg(url)|
    ensures forall i :: 0 <= i < 16 ==> IsLowerHex(r[i])
    ensures Unhex(r[..16]) == sha256(url)[..8]
    ensures r[16..] == ExtOrJpg(url)
    ensures forall i :: 0 <= i < |r| ==> r[i] != '/'
  {
    var prefix := Hex(sha256(url)[..8]);
    HexRoundTrip(sha256(url)[..8]);
    var r := prefix + ExtOrJpg(url);
    assert r[..16] == prefix;
    assert forall i :: 0 <= i < 16 ==> r[i] != '/' by {
      forall i | 0 <= i < 16 ensures r[i] != '/' { assert IsLowerHex(prefix[i]); }
    }
    r
  }

  /** Where the file lives, and the URL it is served under. */
  function CachePath(url: string, sha256: string -> Digest): string {
    JoinFile(CacheDir, CacheFilename(url, sha256))
  }

  function CachedURL(url: string, sha256: string -> Digest): string {
    CacheBaseURL + "/" + CacheFilename(url, sha256)
  }

  /** The HTTP GET's result: a transport failure, or a status with its Content-Type header. */
  datatype Response = TransportFailed(message: string) | Response(status: int, contentType: string)

  /**
    What creating and filling the cache file did. After a failed copy the
    partial file is removed; the removal's own error is ignored, so
    `CopyAndRemoveFailed` leaves the partial file behind.
   */
  datatype Write = CreateFailed | CopyFailed | CopyAndRemoveFailed | Written

  datatype DownloadOutcome = DownloadOutcome(response: Response, write: Write)

  datatype DownloadError =
    | RequestFailed(message: string)
    | BadStatus(status: int)
    | NotAnImage(contentType: string)
    | CreateError
    | CopyError

  /** The response is a 200 whose Content-Type starts with "image/". */
  predicate Acceptable(r: Response) {
    r.Response? && r.status == 200 && HasPrefix(r.contentType, "image/")
  }

  predicate Succeeds(d: DownloadOutcome) {
    Acceptable(d.response) && d.write == Written
  }

  datatype DownloadRun = DownloadRun(fs: FileSystem, error: Option<DownloadError>)

  /**
    downloadAndCacheImage: a transport failure, a non-200 status or a
    non-image Content-Type fails before any file exists; a failed create
    leaves nothing; a failed copy removes the partial file, unless that
    removal fails too.
   */
  function DownloadAndCacheImage(fs: FileSystem, path: string, d: DownloadOutcome): (r: DownloadRun)
    ensures r.error.None? <==> Succeeds(d)
    ensures r.error.None? ==> r.fs == fs + {path}
    ensures !Acceptable(d.response) ==> r.fs == fs && r.error.Some?
    ensures d.response.Response? && d.response.status != 200 ==> r.error == Some(BadStatus(d.response.status))
    ensures Acceptable(d.response) && d.write == CreateFailed ==> r.fs == fs && r.error == Some(CreateError)
    ensures Acceptable(d.response) && d.write == CopyFailed ==> r.fs == fs - {path} && r.error == Some(CopyError)
    ensures Acceptable(d.response) && d.write == CopyAndRemoveFailed ==> r.fs == fs + {path} && r.error == Some(CopyError)
  {
    match d.response
    case TransportFailed(m) => DownloadRun(fs, Some(RequestFailed(m)))
    case Response(status, contentType) =>
      if status != 200 then DownloadRun(fs, Some(BadStatus(status)))
      else if !HasPrefix(contentType, "image/") then DownloadRun(fs, Some(NotAnImage(contentType)))
      else
        match d.write
        case CreateFailed => DownloadRun(fs, Some(CreateError))
        case CopyFailed => DownloadRun(fs - {path}, Some(CopyError))
        case CopyAndRemoveFailed => DownloadRun(fs + {path}, Some(CopyError))
        case Written => DownloadRun(fs + {path}, None)
  }

  datatype CacheError = EmptyURL | CacheFailed(cause: DownloadError)

  /** The result of one lookup, and whether it went to the network. */
  datatype Lookup = Lookup(fs: FileSystem, url: Result<string, CacheError>, downloaded: bool)

  /**
    getCachedImageURL: an empty URL is an error; a file already at the
    cache path is served without a download and without any check of its
    content; otherwise the image is downloaded first.
   */
  function GetCachedImageURL(fs: FileSystem, url: string, sha256: string -> Digest, d: DownloadOutcome): (r: Lookup)
    ensures url == "" ==> r == Lookup(fs, Err(EmptyURL), false)
    ensures url != "" && CachePath(url, sha256) in fs ==> r == Lookup(fs, Ok(CachedURL(url, sha256)), false)
    ensures url != "" && CachePath(url, sha256) !in fs ==> r.downloaded
    ensures r.url.Ok? <==> url != "" && (CachePath(url, sha256) in fs || Succeeds(d))
    ensures r.url.Ok? ==> r.url.value == CachedURL(url, sha256) && r.fs == fs + {CachePath(url, sha256)}
    ensures r.url.Err? ==>
      (r.fs == fs || (Acceptable(d.response) && d.write == CopyAndRemoveFailed && r.fs == fs + {CachePath(url, sha256)}))
    ensures r.fs == fs || r.fs == fs + {CachePath(url, sha256)}
  {
    if url == "" then Lookup(fs, Err(EmptyURL), false)
    else
      var path := CachePath(url, sha256);
      if path in fs then Lookup(fs, Ok(CachedURL(url, sha256)), false)
      else
        var run := DownloadAndCacheImage(fs, path, d);
        match run.error
        case Some(e) => Lookup(run.fs, Err(CacheFailed(e)), true)
        case None => Lookup(run.fs, Ok(CachedURL(url, sha256)), true)
  }

  /** A second lookup of a URL the first one cached returns the same local URL and does not download. */
  lemma LookupIdempotent(fs: FileSystem, url: string, sha256: string -> Digest, d1: DownloadOutcome, d2: DownloadOutcome)
    requires GetCachedImageURL(fs, url, sha256, d1).url.Ok?
    ensures var first := GetCachedImageURL(fs, url, sha256, d1);
      var second := GetCachedImageURL(first.fs, url, sha256, d2);
      second == Lookup(first.fs, first.url, false)
  {
  }

  /** A 404 leaves no file for the key and reports the status. */
  lemma NotFoundLeavesNoFile(fs: FileSystem, url: string, sha256: string -> Digest, w: Write)
    requires url != "" && CachePath(url, sha256) !in fs
    ensures var r := GetCachedImageURL(fs, url, sha256, DownloadOutcome(Response(404, "text/html"), w));
      r.url == Err(CacheFailed(BadStatus(404))) && CachePath(url, sha256) !in r.fs
  {
  }

  /**
    When the clean-up after a failed copy fails as well, the partial file
    stays at the cache path, and the next lookup serves it without
    downloading again.
   */
  lemma PartialFileServedLater(fs: FileSystem, url: string, sha256: string -> Digest, d: DownloadOutcome)
    requires url != "" && CachePath(url, sha256) !in fs
    ensures var first := GetCachedImageURL(fs, url, sha256, DownloadOutcome(Response(200, "image/jpeg"), CopyAndRemoveFailed));
      var second := GetCachedImageURL(first.fs, url, sha256, d);
      first.url.Err? && second == Lookup(first.fs, Ok(CachedURL(url, sha256)), false)
  {
    assert HasPrefix("image/jpeg", "image/") by {
      assert "image/jpeg"[..6] == "image/";
    }
  }

  /** One element's lookup inside transformImageURLs: an empty URL is skipped without touching the filesystem. */
  function LookupItem(fs: FileSystem, url: string, sha256: string -> Digest, net: string -> DownloadOutcome): (r: Lookup)
    ensures r.fs == fs || r.fs == fs + {CachePath(url, sha256)}
    ensures url == "" ==> r.url.Err? && r.fs == fs
    ensures r.url.Ok? ==> r.url.value == CachedURL(url, sha256) && CachePath(url, sha256) in r.fs
    ensures r.url.Ok? <==> url != "" && (CachePath(url, sha256) in fs || Succeeds(net(url)))
  {
    if url == "" then Lookup(fs, Err(EmptyURL), false)
    else GetCachedImageURL(fs, url, sha256, net(url))
  }

  datatype Transformed<T> = Transformed(fs: FileSystem, items: seq<T>)

  /** The loop of transformImageURLs: look the first element up, then go on from the filesystem that lookup left. */
  function TransformFrom<T>(
    fs: FileSystem, series: seq<T>, getImageURL: T -> string, setImageURL: (T, string) -> T,
    sha256: string -> Digest, net: string -> DownloadOutcome): (r: Transformed<T>)
    ensures |r.items| == |series|
    decreases |series|
  {
    if |series| == 0 then Transformed(fs, [])
    else
      var head := LookupItem(fs, getImageURL(series[0]), sha256, net);
      var item := if head.url.Ok? then setImageURL(series[0], head.url.value) else series[0];
      var tail := TransformFrom(head.fs, series[1..], getImageURL, setImageURL, sha256, net);
      Transformed(tail.fs, [item] + tail.items)
  }

  /** The loop only adds files, and only the cache paths of its elements. */
  lemma {:induction false} TransformFsBounds<T>(
    fs: FileSystem, series: seq<T>, getImageURL: T -> string, setImageURL: (T, string) -> T,
    sha256: string -> Digest, net: string -> DownloadOutcome)
    ensures var r := TransformFrom(fs, series, getImageURL, setImageURL, sha256, net);
      && fs <= r.fs
      && forall p :: p in r.fs ==> p in fs || exists k :: 0 <= k < |series| && p == CachePath(getImageURL(series[k]), sha256)
    decreases |series|
  {
    if |series| > 0 {
      var head := LookupItem(fs, getImageURL(series[0]), sha256, net);
      var rest := series[1..];
      var r := TransformFrom(fs, series, getImageURL, setImageURL, sha256, net);
      TransformFsBounds(head.fs, rest, getImageURL, setImageURL, sha256, net);
      forall p | p in r.fs && p !in fs
        ensures exists k :: 0 <= k < |series| && p == CachePath(getImageURL(series[k]), sha256)
      {
        if p in head.fs {
          assert p == CachePath(getImageURL(series[0]), sha256);
        } else {
          var k :| 0 <= k < |rest| && p == CachePath(getImageURL(rest[k]), sha256);
          assert rest[k] == series[k + 1];
        }
      }
    }
  }

  /**
    What the loop does to element `i`: it is kept or gets its cached URL;
    an empty URL keeps it; a file already there or a successful download
    replaces it; a cache path missing at the end keeps it.
   */
  lemma {:induction false} TransformItemAt<T>(
    fs: FileSystem, series: seq<T>, getImageURL: T -> string, setImageURL: (T, string) -> T,
    sha256: string -> Digest, net: string -> DownloadOutcome, i: int)
    requires 0 <= i < |series|
    ensures var r := TransformFrom(fs, series, getImageURL, setImageURL, sha256, net);
      var u := getImageURL(series[i]);
      && (r.items[i] == series[i] || r.items[i] == setImageURL(series[i], CachedURL(u, sha256)))
      && (u == "" ==> r.items[i] == series[i])
      && (u != "" && (CachePath(u, sha256) in fs || Succeeds(net(u))) ==> r.items[i] == setImageURL(series[i], CachedURL(u, sha256)))
      && (CachePath(u, sha256) !in r.fs ==> r.items[i] == series[i])
    decreases i
  {
    var head := LookupItem(fs, getImageURL(series[0]), sha256, net);
    var rest := series[1..];
    var tail := TransformFrom(head.fs, rest, getImageURL, setImageURL, sha256, net);
    var r := TransformFrom(fs, series, getImageURL, setImageURL, sha256, net);
    TransformFsBounds(head.fs, rest, getImageURL, setImageURL, sha256, net);
    if i == 0 {
      assert r.items[0] == (if head.url.Ok? then setImageURL(series[0], head.url.value) else series[0]);
    } else {
      assert rest[i - 1] == series[i];
      assert r.items[i] == tail.items[i - 1];
      TransformItemAt(head.fs, rest, getImageURL, setImageURL, sha256, net, i - 1);
    }
  }

  /**
    An element whose lookup fails is kept unchanged, even when the failure
    left a partial file behind: its cache file was not there at the start,
    no earlier element shares its cache path, and its download does not
    succeed.
   */
  lemma {:induction false} FailedLookupKeepsElement<T>(
    fs: FileSystem, series: seq<T>, getImageURL: T -> string, setImageURL: (T, string) -> T,
    sha256: string -> Digest, net: string -> DownloadOutcome, i: int)
    requires 0 <= i < |series|
    requires CachePath(getImageURL(series[i]), sha256) !in fs && !Succeeds(net(getImageURL(series[i])))
    requires forall j :: 0 <= j < i ==> CachePath(getImageURL(series[j]), sha256) != CachePath(getImageURL(series[i]), sha256)
    ensures TransformFrom(fs, series, getImageURL, setImageURL, sha256, net).items[i] == series[i]
    decreases i
  {
    var head := LookupItem(fs, getImageURL(series[0]), sha256, net);
    if i == 0 {
      assert head.url.Err?;
    } else {
      var rest := series[1..];
      var p := CachePath(getImageURL(series[i]), sha256);
      NoEarlierCollisionInRest(series, getImageURL, sha256, i);
      assert p !in head.fs;
      FailedLookupKeepsElement(head.fs, rest, getImageURL, setImageURL, sha256, net, i - 1);
      TransformShift(fs, series, getImageURL, setImageURL, sha256, net, i);
    }
  }

  /** The filesystem as the loop leaves it after the first `i` elements. */
  function FsBefore<T>(
    fs: FileSystem, series: seq<T>, getImageURL: T -> string, setImageURL: (T, string) -> T,
    sha256: string -> Digest, net: string -> DownloadOutcome, i: int): FileSystem
    requires 0 <= i <= |series|
  {
    TransformFrom(fs, series[..i], getImageURL, setImageURL, sha256, net).fs
  }

  /**
    Element `i` gets its cached URL exactly when its URL is non-empty and
    either its file is there once the earlier elements are done (cached
    before, or written by an earlier element) or its own download
    succeeds; otherwise it is kept.
   */
  lemma {:induction false} ItemAgainstPrefix<T>(
    fs: FileSystem, series: seq<T>, getImageURL: T -> string, setImageURL: (T, string) -> T,
    sha256: string -> Digest, net: string -> DownloadOutcome, i: int)
    requires 0 <= i < |series|
    ensures var u := getImageURL(series[i]);
      TransformFrom(fs, series, getImageURL, setImageURL, sha256, net).items[i]
      == if u != "" && (CachePath(u, sha256) in FsBefore(fs, series, getImageURL, setImageURL, sha256, net, i) || Succeeds(net(u)))
         then setImageURL(series[i], CachedURL(u, sha256))
         else series[i]
    decreases i
  {
    var head := LookupItem(fs, getImageURL(series[0]), sha256, net);
    var rest := series[1..];
    if i == 0 {
      assert series[..0] == [];
      assert FsBefore(fs, series, getImageURL, setImageURL, sha256, net, 0) == fs;
    } else {
      var prefix := series[..i];
      assert prefix[0] == series[0];
      assert prefix[1..] == rest[..i - 1];
      assert FsBefore(fs, series, getImageURL, setImageURL, sha256, net, i)
        == FsBefore(head.fs, rest, getImageURL, setImageURL, sha256, net, i - 1);
      assert rest[i - 1] == series[i];
      ItemAgainstPrefix(head.fs, rest, getImageURL, setImageURL, sha256, net, i - 1);
      TransformShift(fs, series, getImageURL, setImageURL, sha256, net, i);
    }
  }

  /** Element `i` of the result is element `i - 1` of the rest's result. */
  lemma TransformShift<T>(
    fs: FileSystem, series: seq<T>, getImageURL: T -> string, setImageURL: (T, string) -> T,
    sha256: string -> Digest, net: string -> DownloadOutcome, i: int)
    requires 0 < i < |series|
    ensures var head := LookupItem(fs, getImageURL(series[0]), sha256, net);
      TransformFrom(fs, series, getImageURL, setImageURL, sha256, net).items[i]
      == TransformFrom(head.fs, series[1..], getImageURL, setImageURL, sha256, net).items[i - 1]
  {
  }

  /** Dropping the first element keeps "no earlier element shares the cache path" for the shifted index. */
  lemma NoEarlierCollisionInRest<T>(series: seq<T>, getImageURL: T -> string, sha256: string -> Digest, i: int)
    requires 0 < i < |series|
    requires forall j :: 0 <= j < i ==> CachePath(getImageURL(series[j]), sha256) != CachePath(getImageURL(series[i]), sha256)
    ensures series[1..][i - 1] == series[i]
    ensures CachePath(getImageURL(series[0]), sha256) != CachePath(getImageURL(series[i]), sha256)
    ensures forall j :: 0 <= j < i - 1 ==> CachePath(getImageURL(series[1..][j]), sha256) != CachePath(getImageURL(series[1..][i - 1]), sha256)
  {
    forall j | 0 <= j < i - 1
      ensures CachePath(getImageURL(series[1..][j]), sha256) != CachePath(getImageURL(series[1..][i - 1]), sha256)
    {
      assert series[1..][j] == series[j + 1];
    }
  }

  /**
    What the transform promises about element `i` of its result `r`: it
    is kept or gets its cached URL; an empty URL keeps it; a file already
    there or a successful download replaces it; a cache path missing at the
    end keeps it; a failed download keeps it when no earlier element has
    the same cache path, even if the failure left a partial file. Exactly:
    it gets its cached URL when its URL is non-empty and its file is there
    after the earlier elements or its download succeeds, and is kept
    otherwise.
   */
  ghost predicate ElementOutcome<T>(
    fs: FileSystem, series: seq<T>, getImageURL: T -> string, setImageURL: (T, string) -> T,
    sha256: string -> Digest, net: string -> DownloadOutcome, r: Transformed<T>, i: int)
    requires 0 <= i < |series| == |r.items|
  {
    var u := getImageURL(series[i]);
    var kept := r.items[i] == series[i];
    var cached := r.items[i] == setImageURL(series[i], CachedURL(u, sha256));
    var warm := u != "" && (CachePath(u, sha256) in FsBefore(fs, series, getImageURL, setImageURL, sha256, net, i) || Succeeds(net(u)));
    && (kept || cached)
    && (u == "" ==> kept)
    && (u != "" && (CachePath(u, sha256) in fs || Succeeds(net(u))) ==> cached)
    && (CachePath(u, sha256) !in r.fs ==> kept)
    && (CachePath(u, sha256) !in fs && !Succeeds(net(u))
        && (forall j :: 0 <= j < i ==> CachePath(getImageURL(series[j]), sha256) != CachePath(u, sha256))
        ==> kept)
    && (warm ==> cached)
    && (!warm ==> kept)
  }

  /** The per-element facts, for every element at once. */
  lemma TransformAllItems<T>(
    fs: FileSystem, series: seq<T>, getImageURL: T -> string, setImageURL: (T, string) -> T,
    sha256: string -> Digest, net: string -> DownloadOutcome)
    ensures var r := TransformFrom(fs, series, getImageURL, setImageURL, sha256, net);
      forall i :: 0 <= i < |series| ==> ElementOutcome(fs, series, getImageURL, setImageURL, sha256, net, r, i)
  {
    var r := TransformFrom(fs, series, getImageURL, setImageURL, sha256, net);
    forall i | 0 <= i < |series|
      ensures ElementOutcome(fs, series, getImageURL, setImageURL, sha256, net, r, i)
    {
      TransformItemAt(fs, series, getImageURL, setImageURL, sha256, net, i);
      var u := getImageURL(series[i]);
      if CachePath(u, sha256) !in fs && !Succeeds(net(u))
        && (forall j :: 0 <= j < i ==> CachePath(getImageURL(series[j]), sha256) != CachePath(u, sha256))
      {
        FailedLookupKeepsElement(fs, series, getImageURL, setImageURL, sha256, net, i);
      }
      ItemAgainstPrefix(fs, series, getImageURL, setImageURL, sha256, net, i);
    }
  }

  /**
    transformImageURLs: each element with a non-empty URL whose caching
    succeeds gets its URL replaced by the cached one; every other element
    is kept as it was, including one whose failed download left a partial
    file. It never fails. Lookups run in order, so a file cached for one
    element is found by the later ones. `net` answers each download by URL.
   */
  function TransformImageURLs<T>(
    fs: FileSystem, series: seq<T>, getImageURL: T -> string, setImageURL: (T, string) -> T,
    sha256: string -> Digest, net: string -> DownloadOutcome): (r: Transformed<T>)
    ensures |r.items| == |series|
    ensures fs <= r.fs
    ensures forall p :: p in r.fs ==> p in fs || exists k :: 0 <= k < |series| && p == CachePath(getImageURL(series[k]), sha256)
    ensures forall i :: 0 <= i < |series| ==> ElementOutcome(fs, series, getImageURL, setImageURL, sha256, net, r, i)
  {
    TransformFsBounds(fs, series, getImageURL, setImageURL, sha256, net);
    TransformAllItems(fs, series, getImageURL, setImageURL, sha256, net);
    TransformFrom(fs, series, getImageURL, setImageURL, sha256, net)
  }
}

=== FILE: list_series.dfy ===
/**
  The listing variant of GetSeriesData. Its filter and sort are the same as
  TvdbSeries': https image, score at least 2000, newest first.
 */
module ListSeries {
  import opened Wrappers
  import opened GoStrings
  import TvdbSeries

  method GetSeriesData(response: Result<seq<TvdbSeries.Series>, string>) returns (r: Result<seq<TvdbSeries.SimplifiedSeries>, string>)
    ensures response.Err? ==> r == Err(response.error)
    ensures response.Ok? ==> r.Ok? && multiset(r.value) == multiset(TvdbSeries.Kept(response.value))
    ensures r.Ok? ==> TvdbSeries.NewestFirst(r.value)
    ensures r.Ok? ==> forall x :: x in r.value ==> x.image != "" && HasPrefix(x.image, "https://") && x.score >= 2000
  {
    r := TvdbSeries.GetSeriesData(response);
  }
}

=== FILE: media.dfy ===
/**
  The catalog entities shared by the home-page cache, the prefetcher and the
  `/home` route: `MediaContent`, `HomePageData` and its seven named lists.
 */
module Media {
  import opened Wrappers

  /** One catalog entry as the upstream API returns it (the float vote average is not modelled). */
  datatype MediaContent = MediaContent(
    id: int,
    name: string,
    title: string,
    overview: string,
    posterPath: string,
    backdropPath: string,
    releaseDate: string,
    firstAirDate: string,
    mediaType: string)

  /** An entry with a release date is a movie; everything else is treated as a series. */
  predicate IsMovie(c: MediaContent) {
    c.releaseDate != ""
  }

  /**
    The movie/series split looks at the release date alone: neither the
    first-air date nor the media type field changes it, so an entry that has
    both dates is a movie, and one with only a first-air date is a series.
   */
  lemma MovieKindFromReleaseDateOnly(c: MediaContent, firstAirDate: string, mediaType: string)
    ensures IsMovie(c) == IsMovie(c.(firstAirDate := firstAirDate, mediaType := mediaType))
    ensures c.releaseDate != "" && c.firstAirDate != "" ==> IsMovie(c)
    ensures c.releaseDate == "" ==> !IsMovie(c.(firstAirDate := firstAirDate, mediaType := "movie"))
  {
  }

  /** The seven lists of a home-page snapshot. */
  datatype Category =
    | TrendingTV
    | TrendingMovies
    | PopularTV
    | PopularMovies
    | UpcomingMovies
    | RecommendedTV
    | RecommendedMovies

  const AllCategories: seq<Category> :=
    [TrendingTV, TrendingMovies, PopularTV, PopularMovies, UpcomingMovies, RecommendedTV, RecommendedMovies]

  /** The JSON name of a list, which is also the `type` the `/home` route accepts. */
  function CategoryKey(c: Category): string {
    match c
    case TrendingTV => "trending_tv"
    case TrendingMovies => "trending_movies"
    case PopularTV => "popular_tv"
    case PopularMovies => "popular_movies"
    case UpcomingMovies => "upcoming_movies"
    case RecommendedTV => "recommended_tv"
    case RecommendedMovies => "recommended_movies"
  }

  /** The `/home` route's switch over the `type` query value. */
  function CategoryOfKey(key: string): (r: Option<Category>)
    ensures r.Some? ==> CategoryKey(r.value) == key
    ensures r.None? ==> forall c: Category :: CategoryKey(c) != key
  {
    if key == "trending_tv" then Some(TrendingTV)
    else if key == "trending_movies" then Some(TrendingMovies)
    else if key == "popular_tv" then Some(PopularTV)
    else if key == "popular_movies" then Some(PopularMovies)
    else if key == "upcoming_movies" then Some(UpcomingMovies)
    else if key == "recommended_tv" then Some(RecommendedTV)
    else if key == "recommended_movies" then Some(RecommendedMovies)
    else None
  }

  /** A complete snapshot of the home page: seven ordered lists. */
  datatype HomePageData = HomePageData(
    trendingTV: seq<MediaContent>,
    trendingMovies: seq<MediaContent>,
    popularTV: seq<MediaContent>,
    popularMovies: seq<MediaContent>,
    upcomingMovies: seq<MediaContent>,
    recommendedTV: seq<MediaContent>,
    recommendedMovies: seq<MediaContent>)
  {
    function List(c: Category): seq<MediaContent> {
      match c
      case TrendingTV => trendingTV
      case TrendingMovies => trendingMovies
      case PopularTV => popularTV
      case PopularMovies => popularMovies
      case UpcomingMovies => upcomingMovies
      case RecommendedTV => recommendedTV
      case RecommendedMovies => recommendedMovies
    }
  }

  /** What one upstream category call yields once decoded: its results, or an error. */
  datatype Fetch = Fetched(results: seq<MediaContent>) | FetchFailed(error: string)
}

=== FILE: prefetch.dfy ===
/**
  The background prefetcher: a single-flight gate with a fifteen-minute
  cooldown, and a monotone set of media ids whose images and details
  have already been warmed. One cycle walks five home-page lists and
  warms every id it has not seen before.

  The work an item triggers (image downloads, detail fetches) is
  recorded, not performed; its outcome is only logged by the program,
  so nothing here depends on it.
 */
module Prefetch {
  import opened Wrappers
  import opened Format
  import opened Media
  import HomeCache

  const Minute := 60_000_000_000
  /** A new cycle may start only once strictly more than this has passed since the last one finished. */
  const Cooldown := 15 * Minute

  /** The gate: whether a cycle is running, and when the last one finished (None before the first). */
  datatype Gate = Gate(inProgress: bool, lastCacheTime: Option<int>)

  const InitialGate := Gate(false, None)

  /** The zero time is arbitrarily far in the past, so a gate that never finished a cycle is always cooled down. */
  predicate CooledDown(g: Gate, now: int) {
    g.lastCacheTime.None? || now - g.lastCacheTime.value > Cooldown
  }

  datatype Kick = Kick(gate: Gate, started: bool)

  /** startBackgroundCaching's decision: start a cycle only when none is running and the cooldown has elapsed. */
  function StartBackgroundCaching(g: Gate, now: int): (r: Kick)
    ensures r.started <==> !g.inProgress && CooledDown(g, now)
    ensures r.started ==> r.gate.inProgress && r.gate.lastCacheTime == g.lastCacheTime
    ensures !r.started ==> r.gate == g
  {
    if !g.inProgress && CooledDown(g, now) then Kick(Gate(true, g.lastCacheTime), true)
    else Kick(g, false)
  }

  /** The deferred clean-up of a cycle: runs whatever the cycle did, including when fetching the home page failed. */
  function FinishCycle(g: Gate, doneAt: int): (r: Gate)
    ensures !r.inProgress
    ensures r.lastCacheTime == Some(doneAt)
  {
    Gate(false, Some(doneAt))
  }

  /** While a cycle runs, no other one starts, however late the request. */
  lemma SingleFlight(g: Gate, start: int, later: int)
    requires StartBackgroundCaching(g, start).started
    ensures !StartBackgroundCaching(StartBackgroundCaching(g, start).gate, later).started
  {
  }

  /** After a cycle finishes at `doneAt`, the next one starts exactly when more than fifteen minutes have passed. */
  lemma CooldownAfterFinish(g: Gate, doneAt: int, now: int)
    ensures StartBackgroundCaching(FinishCycle(g, doneAt), now).started <==> now - doneAt > Cooldown
  {
  }

  /** Which image of an item a download is for. */
  datatype ImageRole = Poster | Backdrop

  function RoleName(role: ImageRole): string {
    match role
    case Poster => "poster"
    case Backdrop => "backdrop"
  }

  /** One piece of warming work: an image download keyed by the decimal id, or a detail fetch of the right kind. */
  datatype Work =
    | CacheImage(id: int, url: string, key: string, role: ImageRole)
    | FetchDetails(id: int, movie: bool)

  /** What identifies a piece of work: the id, and which image (None for the detail fetch). */
  function Tag(w: Work): (int, Option<ImageRole>) {
    match w
    case CacheImage(id, _, _, role) => (id, Some(role))
    case FetchDetails(id, _) => (id, None)
  }

  /** No piece of work appears twice. */
  predicate DistinctTags(ws: seq<Work>) {
    forall i, j :: 0 <= i < j < |ws| ==> Tag(ws[i]) != Tag(ws[j])
  }

  /** The work for one item not seen before: its poster and backdrop when present, then its details. */
  function ItemWork(c: MediaContent): (r: seq<Work>)
    ensures forall w :: w in r ==> w.id == c.id
    ensures DistinctTags(r)
    ensures CacheImage(c.id, c.posterPath, Decimal(c.id), Poster) in r <==> c.posterPath != ""
    ensures CacheImage(c.id, c.backdropPath, Decimal(c.id), Backdrop) in r <==> c.backdropPath != ""
    ensures forall w :: w in r && w.CacheImage? ==> w.url != "" && w.key == Decimal(c.id)
    ensures forall w :: w in r && w.CacheImage? ==> w.url == (if w.role == Poster then c.posterPath else c.backdropPath)
    ensures |r| == (if c.posterPath != "" then 1 else 0) + (if c.backdropPath != "" then 1 else 0) + 1
    ensures c.posterPath != "" ==> r[0].CacheImage? && r[0].role == Poster
    ensures 0 < |r| && r[|r| - 1] == FetchDetails(c.id, IsMovie(c))
  {
    (if c.posterPath != "" then [CacheImage(c.id, c.posterPath, Decimal(c.id), Poster)] else [])
    + (if c.backdropPath != "" then [CacheImage(c.id, c.backdropPath, Decimal(c.id), Backdrop)] else [])
    + [FetchDetails(c.id, IsMovie(c))]
  }

  datatype ItemRun = ItemRun(seen: set<int>, work: seq<Work>)

  /**
    cacheMediaContent: an id already marked does nothing; any other id is
    warmed and then marked, whatever the warming's errors were.
   */
  function CacheMediaContent(seen: set<int>, c: MediaContent): (r: ItemRun)
    ensures r.seen == seen + {c.id}
    ensures c.id in seen ==> r.work == []
    ensures c.id !in seen ==> r.work == ItemWork(c)
  {
    if c.id in seen then ItemRun(seen, []) else ItemRun(seen + {c.id}, ItemWork(c))
  }

  /** The ids of a list of items. */
  function IdsOf(items: seq<MediaContent>): (r: set<int>)
    ensures forall i :: 0 <= i < |items| ==> items[i].id in r
    ensures forall id :: id in r ==> exists i :: 0 <= i < |items| && items[i].id == id
  {
    if |items| == 0 then {} else {items[0].id} + IdsOf(items[1..])
  }

  lemma DistinctTagsConcat(a: seq<Work>, b: seq<Work>)
    requires DistinctTags(a) && DistinctTags(b)
    requires forall i, j :: 0 <= i < |a| && 0 <= j < |b| ==> a[i].id != b[j].id
    ensures DistinctTags(a + b)
  {
  }

  datatype CycleRun = CycleRun(seen: set<int>, work: seq<Work>)

  /**
    The items of a cycle processed one after another. The marked set ends
    as the old set plus every item's id; work is done only for ids not
    marked before, and no piece of work is done twice.
   */
  function ProcessItems(seen: set<int>, items: seq<MediaContent>): (r: CycleRun)
    ensures r.seen == seen + IdsOf(items)
    ensures forall w :: w in r.work ==> w.id in IdsOf(items) && w.id !in seen
    ensures DistinctTags(r.work)
    ensures forall id :: id in IdsOf(items) && id !in seen ==> exists w :: w in r.work && w.FetchDetails? && w.id == id
    ensures IdsOf(items) <= seen ==> r.work == []
    decreases |items|
  {
    if |items| == 0 then CycleRun(seen, [])
    else
      var first := CacheMediaContent(seen, items[0]);
      var rest := ProcessItems(first.seen, items[1..]);
      DistinctTagsConcat(first.work, rest.work);
      CycleRun(rest.seen, first.work + rest.work)
  }

  /** Item `i` is the first occurrence of an id that was not marked before the cycle. */
  predicate FirstNewAt(seen: set<int>, items: seq<MediaContent>, i: int) {
    0 <= i < |items| && items[i].id !in seen && forall j :: 0 <= j < i ==> items[j].id != items[i].id
  }

  /** The first occurrence of an unmarked id gets all of its work done. */
  lemma {:induction false} NewItemWarmed(seen: set<int>, items: seq<MediaContent>, i: int, w: Work)
    requires FirstNewAt(seen, items, i) && w in ItemWork(items[i])
    ensures w in ProcessItems(seen, items).work
    decreases i
  {
    var first := CacheMediaContent(seen, items[0]);
    var rest := ProcessItems(first.seen, items[1..]);
    assert ProcessItems(seen, items).work == first.work + rest.work;
    if i == 0 {
      assert first.work == ItemWork(items[0]);
    } else {
      assert first.seen == seen + {items[0].id};
      assert items[0].id != items[i].id;
      assert items[1..][i - 1] == items[i];
      forall j | 0 <= j < i - 1
        ensures items[1..][j].id != items[1..][i - 1].id
      {
        assert items[1..][j] == items[j + 1];
      }
      assert FirstNewAt(first.seen, items[1..], i - 1);
      NewItemWarmed(first.seen, items[1..], i - 1, w);
      assert w in rest.work;
    }
  }

  /** Every piece of work done belongs to the first occurrence of an unmarked id. */
  lemma {:induction false} WorkComesFromNewItem(seen: set<int>, items: seq<MediaContent>, w: Work)
    ensures w in ProcessItems(seen, items).work ==> exists i :: FirstNewAt(seen, items, i) && w in ItemWork(items[i])
    decreases |items|
  {
    if w in ProcessItems(seen, items).work {
      var first := CacheMediaContent(seen, items[0]);
      var rest := ProcessItems(first.seen, items[1..]);
      assert ProcessItems(seen, items).work == first.work + rest.work;
      if w in first.work {
        assert FirstNewAt(seen, items, 0);
      } else {
        WorkComesFromNewItem(first.seen, items[1..], w);
        var k :| FirstNewAt(first.seen, items[1..], k) && w in ItemWork(items[1..][k]);
        assert items[1..][k] == items[k + 1];
        forall j | 0 <= j < k + 1
          ensures items[j].id != items[k + 1].id
        {
          if j > 0 {
            assert items[1..][j - 1] == items[j];
          }
        }
        assert FirstNewAt(seen, items, k + 1);
      }
    }
  }

  /**
    The work of a pass is exactly the work of the first occurrences of the
    ids not marked before it; with DistinctTags, each piece is done once.
   */
  lemma ProcessItemsWorkExactly(seen: set<int>, items: seq<MediaContent>)
    ensures forall w :: w in ProcessItems(seen, items).work <==>
      exists i :: FirstNewAt(seen, items, i) && w in ItemWork(items[i])
  {
    forall w
      ensures w in ProcessItems(seen, items).work <==> exists i :: FirstNewAt(seen, items, i) && w in ItemWork(items[i])
    {
      WorkComesFromNewItem(seen, items, w);
      if exists i :: FirstNewAt(seen, items, i) && w in ItemWork(items[i]) {
        var i :| FirstNewAt(seen, items, i) && w in ItemWork(items[i]);
        NewItemWarmed(seen, items, i, w);
      }
    }
  }

  /** Warming is idempotent: a second pass over the same items does no work and marks nothing new. */
  lemma SecondPassDoesNoWork(seen: set<int>, items: seq<MediaContent>)
    ensures var first := ProcessItems(seen, items);
      ProcessItems(first.seen, items) == CycleRun(first.seen, [])
  {
    var first := ProcessItems(seen, items);
    var ids := IdsOf(items);
    assert ids <= first.seen;
    var second := ProcessItems(first.seen, items);
    assert second.seen == first.seen;
  }

  /** The five lists a cycle walks, in the order it walks them; the recommendation lists are not among them. */
  function CycleItems(d: HomePageData): (r: seq<MediaContent>)
    ensures forall c :: c in r <==>
      (c in d.trendingTV || c in d.trendingMovies || c in d.popularTV || c in d.popularMovies || c in d.upcomingMovies)
  {
    d.trendingTV + d.trendingMovies + d.popularTV + d.popularMovies + d.upcomingMovies
  }

  datatype CycleResult = CycleResult(gate: Gate, seen: set<int>, cache: HomeCache.CacheState, work: seq<Work>)

  /**
    One background cycle started from gate `g`: read the home page through
    the aggregate cache at `now`, warm the five lists, and finish the gate
    at `doneAt`, also when the read failed.
   */
  function RunCycle(g: Gate, seen: set<int>, cache: HomeCache.CacheState, o: HomeCache.Outcomes, now: int, doneAt: int): (r: CycleResult)
    ensures r.gate == Gate(false, Some(doneAt))
    ensures r.cache == HomeCache.Get(cache, o, now).state
    ensures HomeCache.Get(cache, o, now).data.Err? ==> r.seen == seen && r.work == []
    ensures HomeCache.Get(cache, o, now).data.Ok? ==>
      r.seen == seen + IdsOf(CycleItems(HomeCache.Get(cache, o, now).data.value))
    ensures forall w :: w in r.work ==> w.id !in seen
    ensures DistinctTags(r.work)
  {
    var read := HomeCache.Get(cache, o, now);
    match read.data
    case Err(_) => CycleResult(FinishCycle(g, doneAt), seen, read.state, [])
    case Ok(d) =>
      var run := ProcessItems(seen, CycleItems(d));
      CycleResult(FinishCycle(g, doneAt), run.seen, read.state, run.work)
  }

  /** An id that only a recommendation list holds is never warmed or marked by a cycle. */
  lemma RecommendationsNeverWarmed(g: Gate, seen: set<int>, cache: HomeCache.CacheState, o: HomeCache.Outcomes,
                                   now: int, doneAt: int, id: int)
    requires id !in seen
    requires HomeCache.Get(cache, o, now).data.Ok?
    requires forall c :: c in CycleItems(HomeCache.Get(cache, o, now).data.value) ==> c.id != id
    ensures var r := RunCycle(g, seen, cache, o, now, doneAt);
      id !in r.seen && forall w :: w in r.work ==> w.id != id
  {
  }

  /**
    The dedup as written under concurrency: every item's goroutine checks
    the marked set before any of them marks it (the check and the mark
    are separate critical sections), so each checks against the set as it
    was when the cycle began.
   */
  function ProcessItemsAllCheckFirst(seen: set<int>, items: seq<MediaContent>): (r: CycleRun)
    ensures r.seen == seen + IdsOf(items)
    ensures forall w :: w in r.work ==> w.id in IdsOf(items) && w.id !in seen
    decreases |items|
  {
    if |items| == 0 then CycleRun(seen, [])
    else
      var rest := ProcessItemsAllCheckFirst(seen, items[1..]);
      var mine := if items[0].id in seen then [] else ItemWork(items[0]);
      CycleRun(rest.seen + {items[0].id}, mine + rest.work)
  }

  const Item5 := MediaContent(5, "Five", "", "", "", "", "", "2024-01-01", "tv")
  const Item7 := MediaContent(7, "Seven", "", "", "", "", "", "2024-02-02", "tv")

  /** An id listed twice in one cycle (here 7, trending and popular) gets its details fetched twice under that schedule. */
  lemma AllCheckFirstRepeatsWork()
    ensures ProcessItemsAllCheckFirst({}, [Item5, Item7, Item7]).work
      == [FetchDetails(5, false), FetchDetails(7, false), FetchDetails(7, false)]
    ensures !DistinctTags(ProcessItemsAllCheckFirst({}, [Item5, Item7, Item7]).work)
  {
    var items := [Item5, Item7, Item7];
    assert ItemWork(Item5) == [FetchDetails(5, false)];
    assert ItemWork(Item7) == [FetchDetails(7, false)];
    assert items[1..] == [Item7, Item7];
    assert [Item7, Item7][1..] == [Item7];
    assert [Item7][1..] == [];
    assert ProcessItemsAllCheckFirst({}, []) == CycleRun({}, []);
    var r3 := ProcessItemsAllCheckFirst({}, [Item7]);
    assert r3.work == [FetchDetails(7, false)];
    var r2 := ProcessItemsAllCheckFirst({}, [Item7, Item7]);
    assert r2.work == [FetchDetails(7, false), FetchDetails(7, false)];
    var w := ProcessItemsAllCheckFirst({}, items).work;
    assert w == [FetchDetails(5, false)] + r2.work;
    assert Tag(w[1]) == Tag(w[2]);
  }
}

=== FILE: sorting.dfy ===
/**
  Sorting by an integer key. Go's `sort.Slice` is not stable, so the model
  promises what it promises: the result is ordered by the key and is a
  permutation of the input. Insertion sort is the witness.
 */
module Sorting {

  ghost predicate SortedBy<T>(s: seq<T>, key: T -> int) {
    forall i, j :: 0 <= i < j < |s| ==> key(s[i]) <= key(s[j])
  }

  /** Every element of `rest` has a key no smaller than `s[0]`'s. */
  lemma HeadBelowRest<T>(x: T, s: seq<T>, rest: seq<T>, key: T -> int)
    requires SortedBy(s, key) && 0 < |s| && key(s[0]) < key(x)
    requires multiset(rest) == multiset(s[1..]) + multiset{x}
    ensures forall j :: 0 <= j < |rest| ==> key(s[0]) <= key(rest[j])
  {
    forall j | 0 <= j < |rest|
      ensures key(s[0]) <= key(rest[j])
    {
      var y := rest[j];
      assert y in multiset(rest);
      if y != x {
        assert y in multiset(s[1..]);
        var k :| 0 <= k < |s[1..]| && s[1..][k] == y;
        assert s[k + 1] == y;
      }
    }
  }

  function Insert<T>(x: T, s: seq<T>, key: T -> int): (r: seq<T>)
    requires SortedBy(s, key)
    ensures SortedBy(r, key)
    ensures multiset(r) == multiset(s) + multiset{x}
    decreases |s|
  {
    if |s| == 0 then [x]
    else if key(x) <= key(s[0]) then [x] + s
    else
      var rest := Insert(x, s[1..], key);
      assert s == [s[0]] + s[1..];
      HeadBelowRest(x, s, rest, key);
      [s[0]] + rest
  }

  /** Orders `s` by non-decreasing key. */
  function SortBy<T>(s: seq<T>, key: T -> int): (r: seq<T>)
    ensures SortedBy(r, key)
    ensures multiset(r) == multiset(s)
    decreases |s|
  {
    if |s| == 0 then []
    else
      assert s == [s[0]] + s[1..];
      Insert(s[0], SortBy(s[1..], key), key)
  }
}

=== FILE: tmdb_client.dfy ===
/**
  The request side of the TMDB client: which endpoint each catalog call
  uses, how the request URL is built, and how a reply is turned into a
  body or an error. The HTTP round trip itself is an input.
 */
module TmdbClient {
  import opened Wrappers
  import opened GoStrings
  import opened Format

  const BaseURL := "https://api.themoviedb.org/3"

  /** The catalog calls the core makes. */
  datatype Endpoint =
    | TrendingSeries
    | PopularSeries
    | RecommendedSeries(seriesId: int)
    | TrendingMovies
    | PopularMovies
    | UpcomingMovies
    | RecommendedMovies(movieId: int)
    | SeriesDetails(seriesId: int)
    | MovieDetails(movieId: int)

  /** The path each catalog call requests. */
  function EndpointPath(e: Endpoint): (r: string)
    ensures HasPrefix(r, "/")
    ensures e.RecommendedSeries? || e.SeriesDetails? ==> HasPrefix(r, "/tv/" + Decimal(e.seriesId))
    ensures e.RecommendedMovies? || e.MovieDetails? ==> HasPrefix(r, "/movie/" + Decimal(e.movieId))
    ensures e.RecommendedSeries? || e.RecommendedMovies? ==> HasSuffix(r, "/recommendations")
    ensures e.TrendingSeries? || e.TrendingMovies? ==> HasPrefix(r, "/trending/")
  {
    match e
    case TrendingSeries => "/trending/tv/week"
    case PopularSeries => "/tv/popular"
    case RecommendedSeries(id) =>
      PrefixOfConcat("/tv/" + Decimal(id), "/recommendations");
      SuffixOfConcat("/tv/" + Decimal(id), "/recommendations");
      "/tv/" + Decimal(id) + "/recommendations"
    case TrendingMovies => "/trending/movie/week"
    case PopularMovies => "/movie/popular"
    case UpcomingMovies => "/movie/upcoming"
    case RecommendedMovies(id) =>
      PrefixOfConcat("/movie/" + Decimal(id), "/recommendations");
      SuffixOfConcat("/movie/" + Decimal(id), "/recommendations");
      "/movie/" + Decimal(id) + "/recommendations"
    case SeriesDetails(id) => "/tv/" + Decimal(id)
    case MovieDetails(id) => "/movie/" + Decimal(id)
  }

  /** Reads the id-bearing tail of a "/tv/..." or "/movie/..." path. */
  function ParseIdTail(rest: string, listName: string, recommended: int -> Endpoint, details: int -> Endpoint): Option<Endpoint> {
    if rest == listName then None
    else if HasSuffix(rest, "/recommendations") then
      match ParseDecimal(rest[..|rest| - |"/recommendations"|])
      case Some(id) => Some(recommended(id))
      case None => None
    else
      match ParseDecimal(rest)
      case Some(id) => Some(details(id))
      case None => None
  }

  /** Recovers the catalog call from a requested path. */
  function ParseEndpoint(path: string): Option<Endpoint> {
    if path == "/trending/tv/week" then Some(TrendingSeries)
    else if path == "/tv/popular" then Some(PopularSeries)
    else if path == "/trending/movie/week" then Some(TrendingMovies)
    else if path == "/movie/popular" then Some(PopularMovies)
    else if path == "/movie/upcoming" then Some(UpcomingMovies)
    else if HasPrefix(path, "/tv/") then
      ParseIdTail(path[4..], "popular", id => RecommendedSeries(id), id => SeriesDetails(id))
    else if HasPrefix(path, "/movie/") then
      ParseIdTail(path[7..], "popular", id => RecommendedMovies(id), id => MovieDetails(id))
    else None
  }

  /** A decimal id holds none of the characters that tell the fixed paths apart: '/', 'p' (popular) and 'u' (upcoming). */
  lemma DecimalAvoidsPathLetters(n: int)
    ensures forall i :: 0 <= i < |Decimal(n)| ==> Decimal(n)[i] != '/' && Decimal(n)[i] != 'p' && Decimal(n)[i] != 'u'
  {
  }

  lemma IdTailRoundTrip(id: int, listName: string, recommended: int -> Endpoint, details: int -> Endpoint)
    requires |listName| > 0 && listName[0] == 'p'
    ensures ParseIdTail(Decimal(id) + "/recommendations", listName, recommended, details) == Some(recommended(id))
    ensures ParseIdTail(Decimal(id), listName, recommended, details) == Some(details(id))
  {
    DecimalRoundTrip(id);
    DecimalAvoidsPathLetters(id);
    var d := Decimal(id);
    var rest := d + "/recommendations";
    assert rest != listName by {
      assert rest[0] == d[0];
    }
    SuffixOfConcat(d, "/recommendations");
    assert rest[..|rest| - |"/recommendations"|] == d;
    assert d != listName by { assert d[0] != 'p'; }
    assert !HasSuffix(d, "/recommendations") by {
      assert d[|d| - 1] != '/';
    }
  }

  /** The series paths differ from every fixed path in a character the solver can see. */
  lemma SeriesPathRoundTrip(id: int, tail: string)
    requires tail == "" || tail == "/recommendations"
    ensures var p := "/tv/" + (Decimal(id) + tail);
      ParseEndpoint(p) == ParseIdTail(Decimal(id) + tail, "popular", id => RecommendedSeries(id), id => SeriesDetails(id))
  {
    var d := Decimal(id);
    var p := "/tv/" + (d + tail);
    DecimalAvoidsPathLetters(id);
    assert p[2] == 'v' && p[1] == 't';
    assert p[4] == d[0] && d[0] != 'p';
    assert p != "/trending/tv/week" by { assert "/trending/tv/week"[2] == 'r'; }
    assert p != "/tv/popular" by { assert "/tv/popular"[4] == 'p'; }
    assert p != "/trending/movie/week" by { assert "/trending/movie/week"[2] == 'r'; }
    assert p != "/movie/popular" by { assert "/movie/popular"[1] == 'm'; }
    assert p != "/movie/upcoming" by { assert "/movie/upcoming"[1] == 'm'; }
    PrefixOfConcat("/tv/", d + tail);
    assert p[4..] == d + tail;
  }

  lemma MoviePathRoundTrip(id: int, tail: string)
    requires tail == "" || tail == "/recommendations"
    ensures var p := "/movie/" + (Decimal(id) + tail);
      ParseEndpoint(p) == ParseIdTail(Decimal(id) + tail, "popular", id => RecommendedMovies(id), id => MovieDetails(id))
  {
    var d := Decimal(id);
    var p := "/movie/" + (d + tail);
    DecimalAvoidsPathLetters(id);
    assert p[1] == 'm';
    assert p[7] == d[0] && d[0] != 'p' && d[0] != 'u';
    assert p != "/trending/tv/week" by { assert "/trending/tv/week"[1] == 't'; }
    assert p != "/tv/popular" by { assert "/tv/popular"[1] == 't'; }
    assert p != "/trending/movie/week" by { assert "/trending/movie/week"[1] == 't'; }
    assert p != "/movie/popular" by { assert "/movie/popular"[7] == 'p'; }
    assert p != "/movie/upcoming" by { assert "/movie/upcoming"[7] == 'u'; }
    assert !HasPrefix(p, "/tv/") by { assert "/tv/"[1] == 't'; }
    PrefixOfConcat("/movie/", d + tail);
    assert p[7..] == d + tail;
  }

  /** Both id-bearing series calls read back from their paths. */
  lemma SeriesIdRoundTrip(id: int)
    ensures ParseEndpoint(EndpointPath(RecommendedSeries(id))) == Some(RecommendedSeries(id))
    ensures ParseEndpoint(EndpointPath(SeriesDetails(id))) == Some(SeriesDetails(id))
  {
    assert EndpointPath(RecommendedSeries(id)) == "/tv/" + (Decimal(id) + "/recommendations");
    assert EndpointPath(SeriesDetails(id)) == "/tv/" + (Decimal(id) + "");
    SeriesPathRoundTrip(id, "/recommendations");
    SeriesPathRoundTrip(id, "");
    assert Decimal(id) + "" == Decimal(id);
    IdTailRoundTrip(id, "popular", id => RecommendedSeries(id), id => SeriesDetails(id));
  }

  /** Both id-bearing movie calls read back from their paths. */
  lemma MovieIdRoundTrip(id: int)
    ensures ParseEndpoint(EndpointPath(RecommendedMovies(id))) == Some(RecommendedMovies(id))
    ensures ParseEndpoint(EndpointPath(MovieDetails(id))) == Some(MovieDetails(id))
  {
    assert EndpointPath(RecommendedMovies(id)) == "/movie/" + (Decimal(id) + "/recommendations");
    assert EndpointPath(MovieDetails(id)) == "/movie/" + (Decimal(id) + "");
    MoviePathRoundTrip(id, "/recommendations");
    MoviePathRoundTrip(id, "");
    assert Decimal(id) + "" == Decimal(id);
    IdTailRoundTrip(id, "popular", id => RecommendedMovies(id), id => MovieDetails(id));
  }

  /** Every catalog call can be read back from the path it requests, so no two calls share a path. */
  lemma EndpointPathRoundTrip(e: Endpoint)
    ensures ParseEndpoint(EndpointPath(e)) == Some(e)
  {
    match e
    case RecommendedSeries(id) => SeriesIdRoundTrip(id);
    case SeriesDetails(id) => SeriesIdRoundTrip(id);
    case RecommendedMovies(id) => MovieIdRoundTrip(id);
    case MovieDetails(id) => MovieIdRoundTrip(id);
    case _ =>
  }

  /** Distinct catalog calls request distinct paths. */
  lemma EndpointPathInjective(e1: Endpoint, e2: Endpoint)
    ensures EndpointPath(e1) == EndpointPath(e2) ==> e1 == e2
  {
    EndpointPathRoundTrip(e1);
    EndpointPathRoundTrip(e2);
  }

  /** The request URL: base URL, endpoint path, then the key as the `api_key` query parameter. */
  function RequestUrl(endpoint: string, apiKey: string): (r: string)
    ensures HasPrefix(r, BaseURL + endpoint)
    ensures HasSuffix(r, "?api_key=" + apiKey)
    ensures |r| == |BaseURL| + |endpoint| + |"?api_key="| + |apiKey|
  {
    PrefixOfConcat(BaseURL + endpoint, "?api_key=" + apiKey);
    SuffixOfConcat(BaseURL + endpoint, "?api_key=" + apiKey);
    BaseURL + endpoint + ("?api_key=" + apiKey)
  }

  /** What the HTTP round trip produced: a transport or read failure, or a status and a body. */
  datatype Reply = TransportError(message: string) | ReadError(message: string) | Response(status: int, body: string)

  /** The outcome of one request: the process exits (missing key), an error, or the body. */
  datatype RequestOutcome = Fatal | Failed(message: string) | Body(body: string)

  /**
    makeRequest: a missing API key ends the process before any request; a
    transport or read error is returned; any status other than 200 is an
    error; with 200 the body is returned even when `isJson` rejects it
    (that check only logs a warning).
   */
  function MakeRequest(endpoint: string, apiKey: string, reply: Reply, isJson: string -> bool): (r: RequestOutcome)
    ensures apiKey == "" <==> r == Fatal
    ensures r.Body? <==> apiKey != "" && reply.Response? && reply.status == 200
    ensures r.Body? ==> r.body == reply.body
    ensures r.Failed? && reply.Response? ==> reply.status != 200 && HasSuffix(r.message, "(Status: " + Decimal(reply.status) + ")")
  {
    if apiKey == "" then Fatal
    else
      match reply
      case TransportError(m) => Failed(m)
      case ReadError(m) => Failed(m)
      case Response(status, body) =>
        if status != 200 then
          SuffixOfConcat("TMDB API error: " + body + " ", "(Status: " + Decimal(status) + ")");
          Failed("TMDB API error: " + body + " " + ("(Status: " + Decimal(status) + ")"))
        else Body(body)
  }

  /** A body that fails the JSON check is still handed to the caller. */
  lemma InvalidJsonStillReturned(endpoint: string, apiKey: string, body: string, isJson: string -> bool)
    requires apiKey != "" && !isJson(body)
    ensures MakeRequest(endpoint, apiKey, Response(200, body), isJson) == Body(body)
  {
  }
}

=== FILE: tmdb_images.dfy ===
/**
  The id-keyed image cache of the TMDB client: a poster is stored as
  "<id>-poster<ext>" under "static/cache", downloaded unconditionally,
  with no Content-Type check and no clean-up of a partial file.
 */
module TmdbImages {
  import opened Wrappers
  import opened GoStrings
  import opened Format
  import opened GoPath

  const ImageBaseURL := "https://image.tmdb.org/t/p/original"
  const CacheDir := "static/cache"

  /** generateCacheFilename(url, id): the decimal id, "-poster", then the URL's extension or ".jpg". */
  function GenerateCacheFilename(imageURL: string, seriesId: int): (r: string)
    ensures HasPrefix(r, Decimal(seriesId) + "-poster")
    ensures HasSuffix(r, ExtOrJpg(imageURL))
    ensures |r| == |Decimal(seriesId)| + 7 + |ExtOrJpg(imageURL)|
  {
    PrefixOfConcat(Decimal(seriesId) + "-poster", ExtOrJpg(imageURL));
    SuffixOfConcat(Decimal(seriesId) + "-poster", ExtOrJpg(imageURL));
    Decimal(seriesId) + "-poster" + ExtOrJpg(imageURL)
  }

  /** Splits a name at its first '.'. */
  function SplitAtFirstDot(s: string): (string, string)
    decreases |s|
  {
    if |s| == 0 then ("", "")
    else if s[0] == '.' then ("", s)
    else
      var rest := SplitAtFirstDot(s[1..]);
      ([s[0]] + rest.0, rest.1)
  }

  lemma {:induction false} SplitAtDotOf(a: string, b: string)
    requires forall i :: 0 <= i < |a| ==> a[i] != '.'
    requires 0 < |b| && b[0] == '.'
    ensures SplitAtFirstDot(a + b) == (a, b)
    decreases |a|
  {
    if |a| == 0 {
      assert a + b == b;
    } else {
      assert (a + b)[1..] == a[1..] + b;
      SplitAtDotOf(a[1..], b);
      assert [a[0]] + a[1..] == a;
    }
  }

  /** Reads an id-keyed poster name back into its id and extension. */
  function ParsePosterFilename(name: string): Option<(int, string)> {
    var (stem, ext) := SplitAtFirstDot(name);
    if ext != "" && HasSuffix(stem, "-poster") then
      match ParseDecimal(stem[..|stem| - 7])
      case Some(id) => Some((id, ext))
      case None => None
    else None
  }

  /** The id and the extension can be read back from the name, so distinct ids never share a poster file. */
  lemma FilenameRoundTrip(imageURL: string, seriesId: int)
    ensures ParsePosterFilename(GenerateCacheFilename(imageURL, seriesId)) == Some((seriesId, ExtOrJpg(imageURL)))
  {
    var stem := Decimal(seriesId) + "-poster";
    var ext := ExtOrJpg(imageURL);
    assert forall i :: 0 <= i < |stem| ==> stem[i] != '.' by {
      forall i | 0 <= i < |stem| ensures stem[i] != '.' {
        if i < |Decimal(seriesId)| { assert stem[i] == Decimal(seriesId)[i]; }
      }
    }
    SplitAtDotOf(stem, ext);
    SuffixOfConcat(Decimal(seriesId), "-poster");
    assert stem[..|stem| - 7] == Decimal(seriesId);
    DecimalRoundTrip(seriesId);
  }

  /** cacheImage as written: the image base URL is prefixed only when `filepath.IsAbs` says the URL is relative. */
  function ResolveImageURLAsWritten(imageURL: string): (r: string)
    ensures HasSuffix(r, imageURL)
    ensures IsHttpURL(r) <==> !HasPrefix(imageURL, "/")
    ensures HasPrefix(imageURL, "/") ==> r == imageURL
  {
    if !IsAbs(imageURL) then
      SuffixOfConcat(ImageBaseURL, imageURL);
      BaseURLIsHttps(imageURL);
      ImageBaseURL + imageURL
    else
      assert imageURL[0] == '/';
      assert "http://"[0] == 'h' && "https://"[0] == 'h';
      imageURL
  }

  /** A TMDB poster path such as "/abc.jpg" starts with '/', so it is requested as is, without scheme or host. */
  lemma AsWrittenRequestsBarePaths(imageURL: string)
    requires HasPrefix(imageURL, "/")
    ensures ResolveImageURLAsWritten(imageURL) == imageURL
    ensures !IsHttpURL(ResolveImageURLAsWritten(imageURL))
  {
    assert imageURL[0] == '/';
    assert "http://"[0] == 'h' && "https://"[0] == 'h';
  }

  /** ... while a full http(s) URL gets the base URL glued in front of it. */
  lemma AsWrittenPrefixesFullURLs(imageURL: string)
    requires IsHttpURL(imageURL)
    ensures ResolveImageURLAsWritten(imageURL) == ImageBaseURL + imageURL
  {
    assert imageURL[0] == 'h';
  }

  predicate IsHttpURL(u: string) {
    HasPrefix(u, "http://") || HasPrefix(u, "https://")
  }

  /** Anything glued after the image base URL is an https URL. */
  lemma BaseURLIsHttps(path: string)
    ensures HasPrefix(ImageBaseURL + path, "https://")
  {
    assert (ImageBaseURL + path)[..8] == ImageBaseURL[..8];
    assert ImageBaseURL[..8] == "https://";
  }

  /** The evidently intended resolution: a URL that is already http(s) is kept, anything else is a path under the image base URL. */
  function ResolveImageURL(imageURL: string): (r: string)
    ensures IsHttpURL(r)
    ensures IsHttpURL(imageURL) ==> r == imageURL
    ensures !IsHttpURL(imageURL) ==> HasPrefix(r, ImageBaseURL) && HasSuffix(r, imageURL)
  {
    if IsHttpURL(imageURL) then imageURL
    else
      PrefixOfConcat(ImageBaseURL, imageURL);
      SuffixOfConcat(ImageBaseURL, imageURL);
      BaseURLIsHttps(imageURL);
      ImageBaseURL + imageURL
  }

  /** The HTTP GET's result: a failure, or a status code with its status text. */
  datatype ImageReply = GetFailed(message: string) | Got(status: int, statusText: string)

  /** What creating and filling the cache file did. */
  datatype Write = CreateFailed | CopyFailed | Written

  datatype ImageError = GetError(message: string) | BadStatus(statusText: string) | CreateError | CopyError

  /** The URL requested, the filesystem afterwards, and the error returned, if any. */
  datatype CacheImageRun = CacheImageRun(requested: string, fs: set<string>, error: Option<ImageError>)

  /**
    The download and write shared by both resolutions: a failed GET or a
    non-200 status fails before any file exists; the file is created at
    "static/cache/<filename>", and a failed copy leaves it in place. A
    URL without an http(s) scheme is refused by the HTTP client whatever
    the network would have answered.
   */
  function Fetch(fs: set<string>, url: string, filename: string, reply: ImageReply, w: Write): (r: CacheImageRun)
    ensures r.requested == url
    ensures !IsHttpURL(url) ==> r == CacheImageRun(url, fs, Some(GetError("unsupported protocol scheme")))
    ensures r.error.None? <==> IsHttpURL(url) && reply.Got? && reply.status == 200 && w == Written
    ensures !(IsHttpURL(url) && reply.Got? && reply.status == 200) ==> r.fs == fs && r.error.Some?
    ensures IsHttpURL(url) && reply.Got? && reply.status != 200 ==> r.error == Some(BadStatus(reply.statusText))
    ensures IsHttpURL(url) && reply.Got? && reply.status == 200 && w == CreateFailed ==> r.fs == fs
    ensures IsHttpURL(url) && reply.Got? && reply.status == 200 && w != CreateFailed ==> r.fs == fs + {JoinFile(CacheDir, filename)}
  {
    if !IsHttpURL(url) then CacheImageRun(url, fs, Some(GetError("unsupported protocol scheme")))
    else
      match reply
      case GetFailed(m) => CacheImageRun(url, fs, Some(GetError(m)))
      case Got(status, statusText) =>
        if status != 200 then CacheImageRun(url, fs, Some(BadStatus(statusText)))
        else
          var cachePath := JoinFile(CacheDir, filename);
          match w
          case CreateFailed => CacheImageRun(url, fs, Some(CreateError))
          case CopyFailed => CacheImageRun(url, fs + {cachePath}, Some(CopyError))
          case Written => CacheImageRun(url, fs + {cachePath}, None)
  }

  /**
    cacheImage(url, filename) as written: the URL is resolved with the
    `IsAbs` test and always downloaded (there is no existence check).
   */
  function CacheImage(fs: set<string>, imageURL: string, filename: string, reply: ImageReply, w: Write): (r: CacheImageRun)
    ensures r.requested == ResolveImageURLAsWritten(imageURL)
    ensures !HasPrefix(imageURL, "/") ==> r == Fetch(fs, ImageBaseURL + imageURL, filename, reply, w)
    ensures HasPrefix(imageURL, "/") ==> r.fs == fs && r.error.Some?
  {
    AsWrittenResolvesAwayFromRoot(imageURL);
    Fetch(fs, ResolveImageURLAsWritten(imageURL), filename, reply, w)
  }

  lemma AsWrittenResolvesAwayFromRoot(imageURL: string)
    ensures !HasPrefix(imageURL, "/") ==> ResolveImageURLAsWritten(imageURL) == ImageBaseURL + imageURL
    ensures HasPrefix(imageURL, "/") ==> !IsHttpURL(ResolveImageURLAsWritten(imageURL))
  {
    if HasPrefix(imageURL, "/") {
      AsWrittenRequestsBarePaths(imageURL);
    }
  }

  /** As written, a TMDB poster path such as "/abc.jpg" is never cached, whatever the network would answer. */
  lemma AsWrittenNeverCachesPosterPaths(fs: set<string>, imageURL: string, filename: string, reply: ImageReply, w: Write)
    requires HasPrefix(imageURL, "/")
    ensures CacheImage(fs, imageURL, filename, reply, w).error.Some?
    ensures CacheImage(fs, imageURL, filename, reply, w).fs == fs
  {
  }

  /** cacheImage with the evidently intended resolution: poster paths are fetched from the image base URL. */
  function CacheImageCorrected(fs: set<string>, imageURL: string, filename: string, reply: ImageReply, w: Write): (r: CacheImageRun)
    ensures r.requested == ResolveImageURL(imageURL)
    ensures r.error.None? <==> reply.Got? && reply.status == 200 && w == Written
    ensures !(reply.Got? && reply.status == 200) ==> r.fs == fs && r.error.Some?
    ensures reply.Got? && reply.status == 200 && w != CreateFailed ==> r.fs == fs + {JoinFile(CacheDir, filename)}
  {
    Fetch(fs, ResolveImageURL(imageURL), filename, reply, w)
  }

  /** With the corrected resolution a poster path is cached when the image server answers 200. */
  lemma CorrectedCachesPosterPaths(fs: set<string>, imageURL: string, filename: string)
    requires HasPrefix(imageURL, "/")
    ensures CacheImageCorrected(fs, imageURL, filename, Got(200, "200 OK"), Written)
      == CacheImageRun(ImageBaseURL + imageURL, fs + {JoinFile(CacheDir, filename)}, None)
  {
    assert imageURL[0] == '/';
    assert "http://"[0] == 'h' && "https://"[0] == 'h';
  }

  /** Unlike the hash-keyed cache, a failed copy leaves the partial file behind. */
  lemma PartialFileSurvives(fs: set<string>, imageURL: string, filename: string)
    requires !HasPrefix(imageURL, "/")
    ensures var r := CacheImage(fs, imageURL, filename, Got(200, "200 OK"), CopyFailed);
      r.error == Some(CopyError) && JoinFile(CacheDir, filename) in r.fs
  {
    BaseURLIsHttps(imageURL);
  }
}

=== FILE: tmdb_series.dfy ===
/**
  GetSeriesData of the TMDB client: the trending-series list reduced to id,
  display name and poster path. The display name prefers `Name` and falls
  back to `Title`; entries without a display name or a poster are dropped.
 */
module TmdbSeries {
  import opened Wrappers
  import opened Media

  datatype SimplifiedSeries = SimplifiedSeries(id: int, name: string, image: string)

  /** `Name`, or `Title` when `Name` is empty. */
  function DisplayName(c: MediaContent): (r: string)
    ensures r == "" <==> c.name == "" && c.title == ""
    ensures c.name != "" ==> r == c.name
  {
    if c.name == "" then c.title else c.name
  }

  predicate Listed(c: MediaContent) {
    DisplayName(c) != "" && c.posterPath != ""
  }

  function Simplify(c: MediaContent): SimplifiedSeries {
    SimplifiedSeries(c.id, DisplayName(c), c.posterPath)
  }

  /** The listed entries, simplified, in input order. */
  function Listing(items: seq<MediaContent>): (r: seq<SimplifiedSeries>)
    ensures |r| <= |items|
    ensures forall x :: x in r <==> exists c :: c in items && Listed(c) && Simplify(c) == x
    ensures forall x :: x in r ==> x.name != "" && x.image != ""
    decreases |items|
  {
    if |items| == 0 then []
    else
      var init := items[..|items| - 1];
      var last := items[|items| - 1];
      assert items == init + [last];
      Listing(init) + (if Listed(last) then [Simplify(last)] else [])
  }

  /** The loop over the trending results; an error fetching them is returned unchanged. */
  method GetSeriesData(trending: Fetch) returns (r: Result<seq<SimplifiedSeries>, string>)
    ensures trending.FetchFailed? ==> r == Err(trending.error)
    ensures trending.Fetched? ==> r == Ok(Listing(trending.results))
  {
    if trending.FetchFailed? {
      return Err(trending.error);
    }
    var items := trending.results;
    var series: seq<SimplifiedSeries> := [];
    var i := 0;
    while i < |items|
      invariant 0 <= i <= |items|
      invariant series == Listing(items[..i])
    {
      var content := items[i];
      assert items[..i + 1][..i] == items[..i];
      var displayName := content.name;
      if displayName == "" {
        displayName := content.title;
      }
      if displayName != "" && content.posterPath != "" {
        series := series + [SimplifiedSeries(content.id, displayName, content.posterPath)];
      }
      i := i + 1;
    }
    assert items[..|items|] == items;
    r := Ok(series);
  }
}

=== FILE: tvdb_series.dfy ===
/**
  GetSeriesData of the TVDB listing: keep the series that have an https
  image and a score of at least `MinScore`, copy their fields, and order
  them newest first by first-aired date. Login, the authenticated request
  and JSON decoding are collapsed into the `response` input.
 */
module TvdbSeries {
  import opened Wrappers
  import opened GoStrings
  import opened Dates
  import Sorting

  /** Minimum score for a series to be listed. */
  const MinScore := 2000

  datatype Series = Series(id: int, name: string, year: string, overview: string, score: int, image: string, firstAired: string)

  datatype SimplifiedSeries = SimplifiedSeries(id: int, name: string, year: string, score: int, overview: string, image: string, firstAired: string)

  /** The field-by-field copy the filter loop appends. */
  function Simplify(s: Series): SimplifiedSeries {
    SimplifiedSeries(s.id, s.name, s.year, s.score, s.overview, s.image, s.firstAired)
  }

  predicate HasValidImage(image: string) {
    image != "" && HasPrefix(image, "https://")
  }

  /** The loop's two tests; the first-aired date is deliberately not one of them. */
  predicate Qualifies(s: Series) {
    HasValidImage(s.image) && s.score >= MinScore
  }

  /** The series the filter keeps, simplified, in input order. */
  function Kept(data: seq<Series>): (r: seq<SimplifiedSeries>)
    ensures |r| <= |data|
    ensures forall x :: x in r <==> exists s :: s in data && Qualifies(s) && Simplify(s) == x
    decreases |data|
  {
    if |data| == 0 then []
    else
      var init := data[..|data| - 1];
      var last := data[|data| - 1];
      assert data == init + [last];
      Kept(init) + (if Qualifies(last) then [Simplify(last)] else [])
  }

  /** The filter loop, appending in input order. */
  method FilterSeries(data: seq<Series>) returns (kept: seq<SimplifiedSeries>)
    ensures kept == Kept(data)
  {
    kept := [];
    var i := 0;
    while i < |data|
      invariant 0 <= i <= |data|
      invariant kept == Kept(data[..i])
    {
      var s := data[i];
      assert data[..i + 1][..i] == data[..i];
      if !HasValidImage(s.image) {
        i := i + 1;
        continue;
      }
      if s.score >= MinScore {
        kept := kept + [Simplify(s)];
      }
      i := i + 1;
    }
    assert data[..|data|] == data;
  }

  ghost predicate NewestFirst(r: seq<SimplifiedSeries>) {
    forall i, j :: 0 <= i < j < |r| ==> DateKey(r[j].firstAired) <= DateKey(r[i].firstAired)
  }

  /** `sort.Slice` with "date j before date i" as the order: newest first, unparseable dates as the zero time. */
  function SortNewestFirst(kept: seq<SimplifiedSeries>): (r: seq<SimplifiedSeries>)
    ensures NewestFirst(r)
    ensures multiset(r) == multiset(kept)
  {
    Sorting.SortBy(kept, (x: SimplifiedSeries) => -DateKey(x.firstAired))
  }

  /**
    The whole shaping step. An error before the data arrives is returned
    as is; otherwise the result is a newest-first permutation of exactly
    the qualifying series, each copied unchanged.
   */
  method GetSeriesData(response: Result<seq<Series>, string>) returns (r: Result<seq<SimplifiedSeries>, string>)
    ensures response.Err? ==> r == Err(response.error)
    ensures response.Ok? ==> r.Ok? && multiset(r.value) == multiset(Kept(response.value)) && NewestFirst(r.value)
    ensures r.Ok? ==> forall x :: x in r.value ==> HasValidImage(x.image) && HasPrefix(x.image, "https://") && x.score >= MinScore
  {
    if response.Err? {
      return Err(response.error);
    }
    var kept := FilterSeries(response.value);
    var sorted := SortNewestFirst(kept);
    forall x | x in sorted
      ensures HasValidImage(x.image) && x.score >= MinScore
    {
      assert x in multiset(sorted);
      assert x in kept;
    }
    r := Ok(sorted);
  }

  /** The first-aired date plays no part in which series are kept. */
  lemma NoDateFilter(s: Series, date: string)
    ensures Qualifies(s) <==> Qualifies(s.(firstAired := date))
  {
  }
}

=== FILE: upcoming_series.dfy ===
/**
  GetUpcomingSeriesData: keep the series whose first-aired date parses,
  whose image is an https URL, whose score is at least `MinScore` and
  which first air after today; order them soonest first.

  `today` is the date key (see Dates.DateKey) of the current UTC calendar
  day. A first-aired date parses to midnight UTC, which is after the
  current instant exactly when it is a later calendar day.
 */
module UpcomingSeries {
  import opened Wrappers
  import opened GoStrings
  import opened Dates
  import Sorting

  /** Minimum score for an upcoming series to be listed. */
  const MinScore := 500

  datatype UpcomingSeries = UpcomingSeries(name: string, year: string, overview: string, score: int, image: string, firstAired: string)

  datatype SimplifiedUpcoming = SimplifiedUpcoming(name: string, year: string, score: int, overview: string, image: string, firstAired: string)

  function Simplify(s: UpcomingSeries): SimplifiedUpcoming {
    SimplifiedUpcoming(s.name, s.year, s.score, s.overview, s.image, s.firstAired)
  }

  predicate HasValidImage(image: string) {
    image != "" && HasPrefix(image, "https://")
  }

  /** The loop's three skips and its final test, in the order the loop applies them. */
  predicate Qualifies(s: UpcomingSeries, today: int) {
    && ValidIsoDate(s.firstAired)
    && HasValidImage(s.image)
    && s.score >= MinScore
    && DateKey(s.firstAired) > today
  }

  function Kept(data: seq<UpcomingSeries>, today: int): (r: seq<SimplifiedUpcoming>)
    ensures |r| <= |data|
    ensures forall x :: x in r <==> exists s :: s in data && Qualifies(s, today) && Simplify(s) == x
    decreases |data|
  {
    if |data| == 0 then []
    else
      var init := data[..|data| - 1];
      var last := data[|data| - 1];
      assert data == init + [last];
      Kept(init, today) + (if Qualifies(last, today) then [Simplify(last)] else [])
  }

  method FilterUpcoming(data: seq<UpcomingSeries>, today: int) returns (kept: seq<SimplifiedUpcoming>)
    ensures kept == Kept(data, today)
  {
    kept := [];
    var i := 0;
    while i < |data|
      invariant 0 <= i <= |data|
      invariant kept == Kept(data[..i], today)
    {
      var s := data[i];
      assert data[..i + 1][..i] == data[..i];
      if !ValidIsoDate(s.firstAired) {
        i := i + 1;
        continue;
      }
      if !HasValidImage(s.image) {
        i := i + 1;
        continue;
      }
      if s.score >= MinScore && DateKey(s.firstAired) > today {
        kept := kept + [Simplify(s)];
      }
      i := i + 1;
    }
    assert data[..|data|] == data;
  }

  ghost predicate SoonestFirst(r: seq<SimplifiedUpcoming>) {
    forall i, j :: 0 <= i < j < |r| ==> DateKey(r[i].firstAired) <= DateKey(r[j].firstAired)
  }

  function SortSoonestFirst(kept: seq<SimplifiedUpcoming>): (r: seq<SimplifiedUpcoming>)
    ensures SoonestFirst(r)
    ensures multiset(r) == multiset(kept)
  {
    Sorting.SortBy(kept, (x: SimplifiedUpcoming) => DateKey(x.firstAired))
  }

  /**
    The whole shaping step: an error before the data arrives is returned as
    is; otherwise a soonest-first permutation of exactly the qualifying
    series, each with a valid date strictly after today.
   */
  method GetUpcomingSeriesData(response: Result<seq<UpcomingSeries>, string>, today: int)
    returns (r: Result<seq<SimplifiedUpcoming>, string>)
    ensures response.Err? ==> r == Err(response.error)
    ensures response.Ok? ==> r.Ok? && multiset(r.value) == multiset(Kept(response.value, today)) && SoonestFirst(r.value)
    ensures r.Ok? ==> forall x :: x in r.value ==>
      ValidIsoDate(x.firstAired) && DateKey(x.firstAired) > today && HasValidImage(x.image) && x.score >= MinScore
  {
    if response.Err? {
      return Err(response.error);
    }
    var kept := FilterUpcoming(response.value, today);
    var sorted := SortSoonestFirst(kept);
    forall x | x in sorted
      ensures ValidIsoDate(x.firstAired) && DateKey(x.firstAired) > today && HasValidImage(x.image) && x.score >= MinScore
    {
      assert x in multiset(sorted);
      assert x in kept;
    }
    r := Ok(sorted);
  }
}

=== FILE: wrappers.dfy ===
/** Failure-carrying wrappers shared by every module of the model. */
module Wrappers {

  /** A value that may be absent: Go's nil pointer or a missing lookup. */
  datatype Option<+T> = None | Some(value: T)

  /** Go's `(value, error)` pair: exactly one side is meaningful. */
  datatype Result<+T, +E> = Ok(value: T) | Err(error: E)
}
